=== FILE: README.md ===
# Feed aggregation core, modelled in Dafny

This project models the deterministic core of a feed-aggregation service written in Go. The service lets users subscribe to web sites, which it calls sources. It crawls each source's front page, extracts candidate articles, stores new ones with content-hash deduplication and a retention limit, and serves each user a paginated feed of the articles of the sources they follow.

The three MongoDB collections (sources, articles, subscriptions) are one immutable `Store.Db` record:

- each collection is a sequence;
- the unique indexes of `database/indexes.go` are the invariant `Store.Invariant`;
- `nextId` stands in for `primitive.NewObjectID`.

Every service operation is a pure function from a store to a new store and a result. Outside effects are parameters:

- store failures (a failed insert, a failed query);
- the clock (one `now` per call);
- SHA-256;
- the outcome of fetching and parsing a page.

Modules follow the program's files:

| module | file | what it holds |
|---|---|---|
| `HashHelper` | hash_helper.dfy | content normalisation, hex encoding, the content hash |
| `Text` | text.dfy | `strings.TrimSpace`, `Fields` and `Join` over Go's white-space set, and ASCII `ToLower` |
| `Models` | models.dfy | `Article`, `Source`, `Subscription` and the `validate` tags as predicates |
| `Store` | store.dfy | the database record, its unique-index invariant, lookups, the recency sort |
| `Extractor` | extractor.dfy | the five-strategy extraction chain and its candidate rules |
| `Crawler` | crawler.dfy | `CrawlSource` with its persist loop and source transitions; `CrawlUserSources` |
| `Retention` | retention.dfy | `cleanupOldArticles`: keep the 50 newest articles per source |
| `Subscriptions` | subscriptions.dfy | `AddSubscription`, `RemoveSubscription`, `ListSubscriptions` |
| `Feed` | feed.dfy | `GetUserFeed` |
| `FeedController` | feed_controller.dfy | the `GET /api/feed` handler's parameters and page count |
| `Seqs`, `Wrappers` | seqs.dfy, wrappers.dfy | generic sequence helpers, `Option` and `Result` |

Facts about the code that shape the model:

- `CrawlUserSources` crawls the listed sources one after another.
- A failed source insert in `AddSubscription` returns "failed to create source: …" and ends the call.
- A source created by `AddSubscription` stays stored when the subscription insert then fails. Nothing is rolled back.
- The content-hash index is not unique in the store. Hash uniqueness holds only because the crawler checks for it before inserting. `Store.Invariant` includes it, and every operation is proved to keep it.

## Model

| member | source | states |
|---|---|---|
| HashHelper.NormalizeText | helpers/hashHelper.go:13-14 | the normalised text has no leading or trailing white space, no two consecutive spaces and no upper-case letter |
| HashHelper.Normalize | helpers/hashHelper.go:13-14 | the text hashed for (title, content) is in normal form |
| HashHelper.NormalizeIdempotent | helpers/hashHelper.go:13-14 | normalising a normalised text changes nothing |
| HashHelper.NormalizeFixesNormalized | helpers/hashHelper.go:13-14 | any text already in normal form is its own normalisation |
| HashHelper.NormalizeTextEqualIff | helpers/hashHelper.go:13-14 | two texts normalise alike exactly when their lower-cased words are equal |
| HashHelper.HexEncode | helpers/hashHelper.go:18 | `hex.EncodeToString` gives two lower-case hex digits per byte |
| HashHelper.HexRoundTrip | helpers/hashHelper.go:18 | decoding the hex encoding gives the bytes back |
| HashHelper.HexEncodeInjective | helpers/hashHelper.go:18 | distinct digests have distinct hex strings |
| HashHelper.GenerateContentHash | helpers/hashHelper.go:11-19 | the hash is 64 lower-case hex digits, whatever SHA-256 is |
| HashHelper.SameWordsSameHash | helpers/hashHelper.go:13-18 | inputs with the same lower-cased words of `title + " " + content` get the same hash |
| HashHelper.DifferentHashDifferentText | helpers/hashHelper.go:13-18 | different hashes imply different normalised texts |
| HashHelper.CaseAndSpaceVariants | helpers/hashHelper.go:13-18 | ("Title", "Body") and (" title ", "BODY") hash alike |
| HashHelper.TitleContentBoundaryLost | helpers/hashHelper.go:13 | ("a b", "") and ("a", "b") hash alike: the title/content boundary is lost |
| HashHelper.EmptyNormalizesToEmpty | helpers/hashHelper.go:13-14 | an empty title and an empty content normalise to the empty text |
| Extractor.Rebase | services/extractorService.go:95-97 | a URL with the rule's prefix gets the base in front; any other URL is unchanged |
| Extractor.TruncateSummary | services/extractorService.go:189-193 | the summary is the trimmed paragraph, or its first 500 characters plus "..." when longer; so it has at most 503 characters |
| Extractor.LinkCandidate | services/extractorService.go:120-173 | a link yields a candidate exactly when it has an href and a long enough trimmed title; the URL is rebased, the summary is empty and the hash covers the title alone |
| Extractor.EntryCandidate | services/extractorService.go:176-201 | a container yields a candidate exactly when its href is non-empty and its trimmed title has at least 10 characters; the "/" URL is rebased on the source and the hash covers title and summary |
| Extractor.LinkCandidateWellFormed | services/extractorService.go:120-173 | every link candidate has a trimmed non-empty title, a short summary and the hash of its title |
| Extractor.EntryCandidateWellFormed | services/extractorService.go:176-201 | every container candidate has a trimmed non-empty title, at most 503 summary characters and the hash of title and summary |
| Extractor.LinkStrategy | services/extractorService.go:86-173 | every candidate the Hacker News, Lobsters and heading-link loops yield is well-formed |
| Extractor.LinkStrategyCandidates | services/extractorService.go:86-173 | those loops yield exactly the candidates of their links |
| Extractor.EntryStrategy | services/extractorService.go:67-83 | every candidate the article-tag and post-class loops yield is well-formed |
| Extractor.EntryStrategyCandidates | services/extractorService.go:67-83 | those loops yield exactly the candidates of their containers |
| Extractor.StrategyOutputs | services/extractorService.go:57-106 | there are five strategies, in priority order |
| Extractor.FirstYield | services/extractorService.go:57-106 | the chain is empty exactly when every strategy is empty; otherwise it is the output of the first strategy that yields |
| Extractor.Cap | services/extractorService.go:108-115 | no candidates give "no articles found on page"; otherwise the first min(n, 50) are kept |
| Extractor.ExtractArticles | services/extractorService.go:55-117 | an error exactly when all five strategies are empty; otherwise 1 to 50 well-formed candidates, a prefix of the first yielding strategy's output |
| Extractor.FetchArticles | services/extractorService.go:28-53 | a fetch, status or parse error is passed on; otherwise the strategy chain runs on the parsed page |
| Extractor.HackerNewsRuleNeedsHost | services/extractorService.go:58-60 | without "news.ycombinator.com" in the source URL, the Hacker News rows do not affect the result |
| Extractor.LobstersRuleNeedsHost | services/extractorService.go:63-65 | without "lobste.rs" in the source URL, the Lobsters rows do not affect the result |
| Extractor.ArticleTagsWinOverLaterStrategies | services/extractorService.go:68-106 | once the `article`-tag strategy yields, the class and heading strategies do not affect the result |
| Extractor.FirstYieldDecidedByWinner | services/extractorService.go:57-106 | strategies after the winning one are never consulted |
| Extractor.ExtractedIsPrefixOfWinner | services/extractorService.go:112-117 | the extracted candidates are a prefix of the winning strategy's output, in document order |
| Crawler.Optional | services/crawlerService.go:78-86 | an empty summary or author is stored as absent, any other value as itself |
| Crawler.ToArticle | services/crawlerService.go:88-98 | the stored article carries the candidate's fields, the source id, the new id and `discovered_at = now` |
| Crawler.PersistOne | services/crawlerService.go:55-106 | a candidate is saved exactly when no article of the source has its URL, no article anywhere has its hash, and the insert does not fail; a saved one is appended, otherwise the articles are unchanged |
| Crawler.PersistAll | services/crawlerService.go:54-107 | `savedCount` is at most the number of candidates and equals the number of articles added; the existing articles are kept as a prefix |
| Crawler.PersistArticles | services/crawlerService.go:54-107 | the imperative loop computes the same store and `savedCount` as the fold |
| Crawler.PersistCoversCandidates | services/crawlerService.go:55-106 | after the loop, every candidate either had its insert fail or is now a duplicate in the store |
| Crawler.PersistAllDuplicates | services/crawlerService.go:57-75 | candidates that are all duplicates save nothing and change nothing |
| Crawler.PersistIdempotent | services/crawlerService.go:54-107 | persisting the same candidates again after a run without insert failures saves nothing |
| Crawler.PersistPreservesInvariant | services/crawlerService.go:55-106 | the loop keeps ids unique, (source_id, url) unique and content hashes unique |
| Crawler.PersistedArticlesTagged | services/crawlerService.go:88-98 | each new article has the source id, `discovered_at = now`, a non-empty title, a 64-character hash, a summary within 1000 characters, no author and no publication date |
| Crawler.RecordAttempt | services/crawlerService.go:29-33 | the attempt stamps `last_attempt_at` with `now` and changes no other field |
| Crawler.RecordFailure | services/crawlerService.go:40-47 | a failure sets status error, the error text and `updated_at`, and raises `failed_crawls` by one, with no other field changed |
| Crawler.RecordSuccess | services/crawlerService.go:118-129 | a success sets status active, clears the error, stamps `last_crawled_at` and `updated_at`, and raises `successful_crawls` by one and `total_articles` by `savedCount` |
| Crawler.Conclude | services/crawlerService.go:37-130 | after the attempt, the crawl fails exactly when extraction failed, with "failed to extract articles: …" and the articles untouched; subscriptions and the number of sources never change |
| Crawler.CrawlSource | services/crawlerService.go:18-132 | a missing source returns "source not found" with nothing changed; a failed crawl leaves the articles untouched; subscriptions are never touched |
| Crawler.CrawlFailure | services/crawlerService.go:30-48 | a failed extraction returns "failed to extract articles: …", leaves the articles untouched and stores the source as attempted and failed |
| Crawler.CrawlSuccess | services/crawlerService.go:30-129 | a successful extraction stores the source as attempted and then succeeded, with the number saved by the loop, whether or not retention failed |
| Crawler.SuccessFields | services/crawlerService.go:112-129 | after a success, `last_crawled_at` equals the `last_attempt_at` stamp, and the counters move by one and by `savedCount` |
| Crawler.FailureFields | services/crawlerService.go:37-48 | after a failure only status, error, `updated_at`, `failed_crawls` and the attempt stamp differ from the original source |
| Crawler.CrawlPreservesInvariant | services/crawlerService.go:18-132 | a crawl keeps the store's unique-index invariant |
| Crawler.CrawlEach | services/crawlerService.go:195-203 | successes plus failures equal the number of sources crawled |
| Crawler.CrawlStep | services/crawlerService.go:195-203 | one crawl of the batch is `CrawlSource` on the page served for the stored source's URL, and subscriptions are untouched |
| Crawler.CrawlUserSources | services/crawlerService.go:184-206 | a listing error gives (0, 0, error) with nothing changed; otherwise every listed source is crawled and successes plus failures equal the number listed |
| Crawler.CrawlAll | services/crawlerService.go:191-205 | the loop computes the same tally and store as the fold over the listed sources |
| Crawler.CrawlEachPreservesInvariant | services/crawlerService.go:184-206 | crawling all of a user's sources keeps the store's invariant |
| Retention.CleanupOldArticles | services/crawlerService.go:135-181 | only stored articles remain; a failure or at most 50 articles of the source leave the store unchanged |
| Retention.CleanupKeepsFifty | services/crawlerService.go:139-172 | after a cleanup without failure the source keeps min(n, 50) of its n articles |
| Retention.CleanupSparesOtherSources | services/crawlerService.go:150-154 | other sources' articles are left exactly as they were, in order |
| Retention.CleanupDeletesOldest | services/crawlerService.go:150-172 | only the source's own articles are deleted, and each kept one is no older than each deleted one |
| Retention.DeletedIsDoomed | services/crawlerService.go:144-172 | a deleted article lies past the 50 newest of its source, which had more than 50 |
| Retention.KeptIsAmongNewest | services/crawlerService.go:150-172 | a kept article of the source is one of its 50 newest |
| Retention.CleanupPreservesInvariant | services/crawlerService.go:135-181 | the cleanup keeps the store's invariant |
| Subscriptions.StripTrailingSlash | services/subscriptionService.go:35-38 | a URL ending in '/' loses exactly that one character; any other URL is unchanged |
| Subscriptions.StripOnlyOnce | services/subscriptionService.go:36-38 | a URL ending in "//" keeps one trailing slash |
| Subscriptions.NewSource | services/subscriptionService.go:50-67 | a new source is active, named after the host, with no error, no crawl stamps and all counters at zero |
| Subscriptions.AddSubscription | services/subscriptionService.go:27-102 | a parse failure or a non-web scheme gives "invalid URL format" with nothing stored; a success appends exactly one subscription of the user, stamped now; articles are never touched |
| Subscriptions.SubscribeTo | services/subscriptionService.go:78-101 | an existing (user, source) pair gives "already subscribed to this source" with nothing stored; otherwise one subscription with a fresh id is appended unless the insert fails |
| Subscriptions.AddReusesSource | services/subscriptionService.go:44-76 | a source with the normalised URL is reused: no source is created and the subscription refers to it |
| Subscriptions.AddCreatesSource | services/subscriptionService.go:48-101 | an unknown normalised URL creates exactly one new source in its initial state, and a successful add subscribes the user to that new source's id |
| Subscriptions.CreatedSourceHasUrl | services/subscriptionService.go:50-53 | the created source has the non-empty URL that its `required` tag asks for |
| Subscriptions.AddSourceInsertFails | services/subscriptionService.go:69-72 | a failed source insert stores nothing and reports "failed to create source: …" |
| Subscriptions.AddRejectsDuplicate | services/subscriptionService.go:79-86 | a user already subscribed to the URL's source is refused and the store is unchanged |
| Subscriptions.NewSourceNeverDuplicate | services/subscriptionService.go:48-86 | a newly created source can never be refused as a duplicate |
| Subscriptions.AddPreservesInvariant | services/subscriptionService.go:27-102 | adding keeps unique source URLs and unique (user, source) pairs, among the other index rules |
| Subscriptions.RemoveSubscription | services/subscriptionService.go:105-143 | a malformed id gives "invalid subscription ID format"; no record with that id owned by the user gives "subscription not found or unauthorized" and nothing is deleted; otherwise the call succeeds and exactly that record goes |
| Subscriptions.RemoveSparesOthers | services/subscriptionService.go:117-132 | another user's subscription is never deleted |
| Subscriptions.RemovePreservesInvariant | services/subscriptionService.go:105-143 | removing keeps the store's invariant |
| Subscriptions.ListSubscriptions | services/subscriptionService.go:146-185 | a query error is reported; otherwise the list holds exactly the user's subscriptions that have a stored source, each paired with that source |
| Subscriptions.ListDropsOrphans | services/subscriptionService.go:169-176 | a subscription whose source is missing is not listed |
| Feed.SourceMap | services/feedService.go:37-40 | every listed source is in the map, and every map entry is a listed source under its own id |
| Feed.Ranked | services/feedService.go:46-58 | the followed articles, newest first, as many as match and no others |
| Feed.PageOf | services/feedService.go:54-81 | the page is the window of the ranking that starts at the skip, at most `limit` long, each article paired with its source |
| Feed.SkipIsProduct | services/feedService.go:54 | the skip for a page is `(page - 1) * limit` |
| Feed.GetUserFeed | services/feedService.go:22-84 | a listing, count or find error is reported with its prefix; no subscriptions give an empty page with total 0; otherwise the page of the ranking |
| Feed.FeedPageSound | services/feedService.go:54-81 | a page has at most `limit` articles, newest first, each a stored article of a followed source paired with that source under the same id |
| Feed.FeedTotalCountsFollowed | services/feedService.go:46-51 | the total is the number of stored articles of followed sources, whatever the page and limit |
| Feed.FeedPageSize | services/feedService.go:54-58 | the page holds min(limit, total - skip) articles, or none past the end |
| Feed.FeedCoversFollowed | services/feedService.go:22-84 | every stored article of a followed source appears on some page |
| Feed.LaterPagesOlder | services/feedService.go:54-58 | every article of an earlier page is no older than every article of a later one |
| Feed.SkipStep | services/feedService.go:54 | the skip of page `page + 1` is the skip of page `page` plus `limit`, so consecutive pages are adjacent windows |
| Feed.FeedPageIsWindow | services/feedService.go:54-58 | without faults the feed page is exactly the window of `limit` articles starting at `(page - 1) * limit` in the newest-first ranking of the followed sources |
| Feed.FeedPageEntries | services/feedService.go:54-63 | entry `i` of page `page` is ranked article `(page - 1) * limit + i` |
| Feed.ShortPageIsLast | services/feedService.go:54-58 | a page holding fewer than `limit` articles is followed by an empty page |
| Feed.ConsecutivePagesDisjoint | services/feedService.go:54-58 | when stored article ids are distinct, no article appears on both page `page` and page `page + 1` |
| FeedController.ParamValue | controllers/feesController.go:24-25 | a missing parameter reads as its default, a malformed one as 0, and a number beyond the int64 range as the nearest end of that range |
| FeedController.ClampPage | controllers/feesController.go:27-29 | a page below 1 becomes 1; any other page is kept |
| FeedController.ClampLimit | controllers/feesController.go:30-32 | a limit outside 1..100 becomes 20; any other limit is kept |
| FeedController.TotalPagesIsCeiling | controllers/feesController.go:43 | `total_pages` is the ceiling of total / limit, and 0 exactly when the total is 0 |
| FeedController.GetFeed | controllers/feesController.go:15-53 | no user gives 401; a feed error gives 500 with its message; otherwise 200 echoing the clamped page and limit that were passed to the feed, the feed's total and articles, and `total_pages` = ceil(total / limit) |
| FeedController.DefaultParameters | controllers/feesController.go:23-32 | missing or unparseable parameters give page 1 and limit 20 |
| FeedController.PageHasArticlesIffWithinTotalPages | controllers/feesController.go:37-50 | a successful page has articles exactly when it is at most `total_pages` |
| Store.EmptyInvariant | database/indexes.go:20-97 | the empty store satisfies the unique-index invariant |
| Store.FindSourceByUrlIndexed | database/indexes.go:20-23 | under the unique URL index, looking up a stored source's URL finds that source |
| Store.SortByRecency | services/feedService.go:56 | sorting by `discovered_at` descending gives a newest-first permutation |

## Left out

- Fetching and parsing: the HTTP request, the 30-second timeout, the User-Agent header, the status check and HTML parsing (services/extractorService.go:29-53) are one `FetchOutcome` parameter. It is either the parsed page or the first error message.
- The goquery selectors: the parsed page is given as the element lists each strategy selects, in document order.
- SHA-256 is a function parameter. Nothing is assumed about it, in particular not that it is free of collisions. Hex encoding is modelled.
- `strings.ToLower` is modelled on ASCII letters only; other letters are left as they are. `TrimSpace` and `Fields` use the white-space set of Go's `unicode.IsSpace`. Go's byte-based lengths are modelled as character counts.
- `url.ParseRequestURI`, `primitive.ObjectIDFromHex` and `strconv.Atoi` are foreign parsers. Their outcomes are parameters: `UrlParse`, `Option<ObjectId>` and `QueryParam`.
- The clock is a parameter. All `time.Now()` calls within one operation are the same instant `now`.
- Concurrency, contexts and timeouts are left out, as is the crawler controller's fan-out. Races between concurrent crawls of the same source are also out of scope.
- Logging is left out.
- ObjectIDs are natural numbers handed out by a counter in the store. Int64 widths and overflow are not modelled.
- Crawler.PersistOne: the dedup gate's count queries always succeed in the model. In the source their errors are discarded (services/crawlerService.go:57,68), which would let the candidate through to the insert.
- Retention.CleanupOldArticles: a single `fails` flag stands for an error from the count, the find or the delete. A cursor entry that fails to decode (services/crawlerService.go:163-165) is not modelled, so such an article is never skipped.
- Retention.CleanupOldArticles: the model ranks a source's articles with equal `discovered_at` in the order its insertion sort gives; the database's skip of 50 (services/crawlerService.go:150-152) promises no particular order for ties, and one crawl stamps all its articles with the same `now`. `CleanupKeepsFifty` and `CleanupDeletesOldest` hold for any tie order. `DeletedIsDoomed` and `KeptIsAmongNewest` speak of positions in the model's own ranking.
- Crawler.CrawlSource: any error from the source lookup returns "source not found: …" with nothing changed (services/crawlerService.go:24-27), and `CrawlUserSources` counts it as a failure. The model fails the lookup only when the source is missing, with the "no documents" message; a timeout or network error is not modelled.
- Subscriptions.SubscribeTo: the duplicate check treats any lookup error as "not subscribed" (services/subscriptionService.go:79-86). An already-subscribed user whose lookup errs reaches the insert, which the unique (user_id, source_id) index rejects with "failed to create subscription: …". The model's lookup always succeeds, so such a user always gets "already subscribed to this source".
- Subscriptions.AddSubscription: a source lookup error other than "not found" ("failed to query source", services/subscriptionService.go:73-74) is not modelled.
- Subscriptions.RemoveSubscription: the query and delete errors are not modelled ("failed to query subscription", "failed to delete subscription", services/subscriptionService.go:124-136). The "subscription not found" case after a delete that removed nothing (lines 138-140) needs a concurrent delete, so it is not modelled either.
- Subscriptions.ListSubscriptions: the decode error (services/subscriptionService.go:162-164) is not modelled. A failed source lookup is treated as a missing source.
- Feed.GetUserFeed: a cursor decode error (services/feedService.go:72-75) is not modelled. The function requires page ≥ 1 and limit ≥ 1, which the only caller, `GetFeed`, guarantees by clamping.
- Feed.GetUserFeed: the model ranks articles with equal `discovered_at` in the order its insertion sort gives; the database promises no particular order for ties. `FeedPageSound`, `FeedPageSize`, `LaterPagesOlder` and `ShortPageIsLast` hold for any tie order. `FeedPageIsWindow` and `FeedPageEntries` describe the model's own ranking.
- Feed.FeedCoversFollowed: each page is a separate query, so in the source this holds only if the database orders tied `discovered_at` values the same way in every query. Otherwise, with limit 1 and two articles of equal `discovered_at`, both pages may return the same article. Ties are common, because one crawl stamps all its articles with the same `now`.
- Feed.ConsecutivePagesDisjoint: for the same reason, this holds in the source only if the database orders ties the same way in the queries for both pages.
- JSON framing is left out, including `null` versus `[]` for an empty page and the `userID.(string)` type assertion in `GetFeed`.
- Crawler.PersistedArticlesTagged: a title's 500-character bound and the article URL's `required,url,max=2000` tag are not guaranteed by the extractor, so they are not stated.
- Subscriptions.CreatedSourceHasUrl: the `Name` tag (1 to 200 characters) is not guaranteed, because the name is the URL's host. Only the URL tag is stated.
- Feed.GetUserFeed / FeedController.GetFeed: `skip := (page - 1) * limit` (services/feedService.go:54) is int64 arithmetic that can wrap. For example, page 2^61 + 1 with limit 8 gives skip 0 in the source, which serves page 1's articles. The model computes the skip over unbounded integers and serves an empty page there. `strconv.Atoi`'s own range clamp is modelled: an out-of-range number becomes the nearest end of the int64 range (controllers/feesController.go:24-25).
- Crawler.RecordAttempt/RecordFailure/RecordSuccess: the three source `UpdateOne` calls always succeed in the model. In the source their errors are discarded (services/crawlerService.go:31,40,118), so a failed update would leave the stored source unchanged while `CrawlSource` still returns its usual result.
- Crawler.CrawlSuccess: the resulting field values are stated through `RecordSuccess` and spelled out by `SuccessFields`, not repeated in this lemma.
- The other controllers, the routes and `main.go` are HTTP wiring. `database/indexes.go` appears only as the store invariant.

=== FILE: crawler.dfy ===
/**
 * services/crawlerService.go: crawling one source (lookup, attempt stamp,
 * extraction, the deduplicating persist loop, retention, and the success or
 * failure transition of the source record) and crawling every source a user
 * subscribes to.
 */
module Crawler {
  import opened Wrappers
  import opened Seqs
  import opened HashHelper
  import opened Models
  import opened Store
  import opened Extractor
  import opened Retention
  import opened Subscriptions

  /** The message of `mongo.ErrNoDocuments`. */
  const NoDocuments := "mongo: no documents in result"

  // ---------------------------------------------------------------- dedup gate

  /** Some article of the source already has this URL. */
  predicate UrlKnown(articles: seq<Article>, sourceId: ObjectId, url: string)
  {
    exists i :: 0 <= i < |articles| && articles[i].sourceId == sourceId && articles[i].url == url
  }

  /** Some article of any source already has this content hash. */
  predicate HashKnown(articles: seq<Article>, hash: string)
  {
    exists i :: 0 <= i < |articles| && articles[i].contentHash == hash
  }

  /** The two count queries of the persist loop: either one finding a match skips the candidate. */
  predicate IsDuplicate(articles: seq<Article>, sourceId: ObjectId, c: ArticleData)
  {
    UrlKnown(articles, sourceId, c.url) || HashKnown(articles, c.contentHash)
  }

  /** An empty string is stored as an absent (nil) field. */
  function Optional(s: string): (r: Option<string>)
    ensures r.None? <==> s == ""
    ensures r.Some? ==> r.value == s
  {
    if s == "" then None else Some(s)
  }

  /** The `Article` document built for a candidate. */
  function ToArticle(id: ObjectId, sourceId: ObjectId, c: ArticleData, now: Time): (r: Article)
    ensures r.id == id && r.sourceId == sourceId && r.discoveredAt == now
    ensures r.title == c.title && r.url == c.url && r.contentHash == c.contentHash
    ensures r.publishedAt == c.publishedAt
    ensures r.summary == Optional(c.summary) && r.author == Optional(c.author)
  {
    Article(id, sourceId, c.title, c.url, c.contentHash, Optional(c.summary), c.publishedAt, now, Optional(c.author))
  }

  // ---------------------------------------------------------------- persist loop

  datatype Persisted = Persisted(db: Db, saved: nat)

  /** Whether the `i`-th insert of the loop fails; inserts beyond the list succeed. */
  predicate InsertFails(fails: seq<bool>, i: nat)
  {
    i < |fails| && fails[i]
  }

  function Drop(fails: seq<bool>, i: nat): (r: seq<bool>)
    ensures forall k: nat :: InsertFails(r, k) == InsertFails(fails, i + k)
  {
    if i <= |fails| then fails[i..] else []
  }

  /**
   * One iteration of the persist loop: a duplicate is skipped, otherwise a
   * new id is drawn and the article inserted, unless the insert fails.
   */
  function PersistOne(db: Db, sourceId: ObjectId, c: ArticleData, fails: bool, now: Time): (r: Persisted)
    ensures r.saved <= 1
    ensures r.saved == 1 <==> !IsDuplicate(db.articles, sourceId, c) && !fails
    ensures r.saved == 1 ==> r.db.articles == db.articles + [ToArticle(db.nextId, sourceId, c, now)]
    ensures r.saved == 0 ==> r.db.articles == db.articles
    ensures IsDuplicate(db.articles, sourceId, c) ==> r.db == db
    ensures r.db.sources == db.sources && r.db.subscriptions == db.subscriptions
    ensures r.db.nextId >= db.nextId
  {
    if IsDuplicate(db.articles, sourceId, c) then Persisted(db, 0)
    else if fails then Persisted(db.(nextId := db.nextId + 1), 0)
    else
      Persisted(db.(articles := db.articles + [ToArticle(db.nextId, sourceId, c, now)],
                    nextId := db.nextId + 1), 1)
  }

  /**
   * The persist loop as a fold: every candidate meets the store as the
   * earlier iterations left it, so duplicates within one batch are caught.
   * `saved` is the loop's `savedCount`.
   */
  function PersistAll(db: Db, sourceId: ObjectId, cands: seq<ArticleData>, fails: seq<bool>, now: Time)
    : (r: Persisted)
    ensures r.saved <= |cands|
    ensures |r.db.articles| == |db.articles| + r.saved
    ensures r.db.articles[..|db.articles|] == db.articles
    ensures r.db.sources == db.sources && r.db.subscriptions == db.subscriptions
    ensures r.db.nextId >= db.nextId
    decreases |cands|
  {
    if |cands| == 0 then Persisted(db, 0)
    else
      var step := PersistOne(db, sourceId, cands[0], InsertFails(fails, 0), now);
      var rest := PersistAll(step.db, sourceId, cands[1..], Drop(fails, 1), now);
      Persisted(rest.db, step.saved + rest.saved)
  }

  /** The fold's first step. */
  lemma PersistAllUnfold(db: Db, sourceId: ObjectId, cands: seq<ArticleData>, fails: seq<bool>, now: Time)
    requires |cands| > 0
    ensures var step := PersistOne(db, sourceId, cands[0], InsertFails(fails, 0), now);
      && PersistAll(db, sourceId, cands, fails, now).db
         == PersistAll(step.db, sourceId, cands[1..], Drop(fails, 1), now).db
      && PersistAll(db, sourceId, cands, fails, now).saved
         == step.saved + PersistAll(step.db, sourceId, cands[1..], Drop(fails, 1), now).saved
  {
  }

  /** The persist loop as the source writes it, with `savedCount` counted in place. */
  method PersistArticles(db: Db, sourceId: ObjectId, cands: seq<ArticleData>, fails: seq<bool>, now: Time)
    returns (out: Db, savedCount: nat)
    ensures Persisted(out, savedCount) == PersistAll(db, sourceId, cands, fails, now)
  {
    out, savedCount := db, 0;
    var i := 0;
    while i < |cands|
      invariant 0 <= i <= |cands|
      invariant PersistAll(out, sourceId, cands[i..], Drop(fails, i), now).db
             == PersistAll(db, sourceId, cands, fails, now).db
      invariant savedCount + PersistAll(out, sourceId, cands[i..], Drop(fails, i), now).saved
             == PersistAll(db, sourceId, cands, fails, now).saved
    {
      var c := cands[i];
      ghost var step := PersistOne(out, sourceId, c, InsertFails(fails, i), now);
      PersistAllUnfold(out, sourceId, cands[i..], Drop(fails, i), now);
      assert cands[i..][1..] == cands[i + 1..];
      assert Drop(Drop(fails, i), 1) == Drop(fails, i + 1);
      if IsDuplicate(out.articles, sourceId, c) {
        // skipped: already stored for this source, or same content elsewhere
      } else if InsertFails(fails, i) {
        out := out.(nextId := out.nextId + 1);
      } else {
        out := out.(articles := out.articles + [ToArticle(out.nextId, sourceId, c, now)],
                    nextId := out.nextId + 1);
        savedCount := savedCount + 1;
      }
      assert out == step.db;
      i := i + 1;
    }
  }

  // ---------------------------------------------------------------- persist properties

  lemma AppendKeepsDuplicate(articles: seq<Article>, more: seq<Article>, sourceId: ObjectId, c: ArticleData)
    requires IsDuplicate(articles, sourceId, c)
    ensures IsDuplicate(articles + more, sourceId, c)
  {
    if UrlKnown(articles, sourceId, c.url) {
      var i :| 0 <= i < |articles| && articles[i].sourceId == sourceId && articles[i].url == c.url;
      assert (articles + more)[i] == articles[i];
    } else {
      var i :| 0 <= i < |articles| && articles[i].contentHash == c.contentHash;
      assert (articles + more)[i] == articles[i];
    }
  }

  /**
   * After the loop every candidate is a duplicate of something stored,
   * except those whose insert failed.
   */
  lemma {:induction false} PersistCoversCandidates(
    db: Db, sourceId: ObjectId, cands: seq<ArticleData>, fails: seq<bool>, now: Time)
    ensures forall i :: 0 <= i < |cands| ==>
      InsertFails(fails, i) || IsDuplicate(PersistAll(db, sourceId, cands, fails, now).db.articles, sourceId, cands[i])
    decreases |cands|
  {
    if |cands| > 0 {
      var next := PersistOne(db, sourceId, cands[0], InsertFails(fails, 0), now).db;
      PersistAllUnfold(db, sourceId, cands, fails, now);
      PersistCoversCandidates(next, sourceId, cands[1..], Drop(fails, 1), now);
      if !InsertFails(fails, 0) {
        PersistOneCovers(db, sourceId, cands[0], now);
        DuplicateSurvivesPersist(next, sourceId, cands[1..], Drop(fails, 1), now, cands[0]);
      }
      forall i | 1 <= i < |cands|
        ensures InsertFails(fails, i)
             || IsDuplicate(PersistAll(next, sourceId, cands[1..], Drop(fails, 1), now).db.articles, sourceId, cands[i])
      {
        assert cands[1..][i - 1] == cands[i];
        assert InsertFails(Drop(fails, 1), i - 1) == InsertFails(fails, i);
      }
    }
  }

  /** A candidate whose insert goes through is a duplicate afterwards. */
  lemma PersistOneCovers(db: Db, sourceId: ObjectId, c: ArticleData, now: Time)
    ensures IsDuplicate(PersistOne(db, sourceId, c, false, now).db.articles, sourceId, c)
  {
    if !IsDuplicate(db.articles, sourceId, c) {
      var articles := PersistOne(db, sourceId, c, false, now).db.articles;
      assert articles[|db.articles|] == ToArticle(db.nextId, sourceId, c, now);
    }
  }

  /** The loop only appends, so a duplicate stays a duplicate. */
  lemma DuplicateSurvivesPersist(
    db: Db, sourceId: ObjectId, cands: seq<ArticleData>, fails: seq<bool>, now: Time, c: ArticleData)
    requires IsDuplicate(db.articles, sourceId, c)
    ensures IsDuplicate(PersistAll(db, sourceId, cands, fails, now).db.articles, sourceId, c)
  {
    var after := PersistAll(db, sourceId, cands, fails, now).db.articles;
    assert after == db.articles + after[|db.articles|..];
    AppendKeepsDuplicate(db.articles, after[|db.articles|..], sourceId, c);
  }

  /** When every candidate is already a duplicate, the loop stores nothing. */
  lemma {:induction false} PersistAllDuplicates(
    db: Db, sourceId: ObjectId, cands: seq<ArticleData>, fails: seq<bool>, now: Time)
    requires forall i :: 0 <= i < |cands| ==> IsDuplicate(db.articles, sourceId, cands[i])
    ensures PersistAll(db, sourceId, cands, fails, now) == Persisted(db, 0)
    decreases |cands|
  {
    if |cands| > 0 {
      assert IsDuplicate(db.articles, sourceId, cands[0]);
      assert forall i :: 0 <= i < |cands[1..]| ==> cands[1..][i] == cands[i + 1];
      PersistAllDuplicates(db, sourceId, cands[1..], Drop(fails, 1), now);
    }
  }

  /**
   * Persisting the same candidates again right after a run without insert
   * failures saves nothing and leaves the store as it was.
   */
  lemma PersistIdempotent(
    db: Db, sourceId: ObjectId, cands: seq<ArticleData>, fails: seq<bool>, fails2: seq<bool>, now: Time, now2: Time)
    requires forall i :: 0 <= i < |cands| ==> !InsertFails(fails, i)
    ensures var first := PersistAll(db, sourceId, cands, fails, now);
      PersistAll(first.db, sourceId, cands, fails2, now2) == Persisted(first.db, 0)
  {
    PersistCoversCandidates(db, sourceId, cands, fails, now);
    PersistAllDuplicates(PersistAll(db, sourceId, cands, fails, now).db, sourceId, cands, fails2, now2);
  }

  /** One iteration keeps the store's invariant. */
  lemma PersistOnePreservesInvariant(db: Db, sourceId: ObjectId, c: ArticleData, fails: bool, now: Time)
    requires Invariant(db) && 0 < sourceId < db.nextId
    ensures Invariant(PersistOne(db, sourceId, c, fails, now).db)
  {
    if !IsDuplicate(db.articles, sourceId, c) && !fails {
      var a := ToArticle(db.nextId, sourceId, c, now);
      assert forall i :: 0 <= i < |db.articles| ==> DistinctArticleIds(db.articles[i], a);
      assert forall i :: 0 <= i < |db.articles| ==> DistinctSourceAndUrl(db.articles[i], a);
      assert forall i :: 0 <= i < |db.articles| ==> DistinctHashes(db.articles[i], a);
      PairwiseAppend(db.articles, a, DistinctArticleIds);
      PairwiseAppend(db.articles, a, DistinctSourceAndUrl);
      PairwiseAppend(db.articles, a, DistinctHashes);
    }
  }

  /**
   * The persist loop keeps URLs unique within each source and content
   * hashes unique across the store, and every id stays issued.
   */
  lemma {:induction false} PersistPreservesInvariant(
    db: Db, sourceId: ObjectId, cands: seq<ArticleData>, fails: seq<bool>, now: Time)
    requires Invariant(db) && 0 < sourceId < db.nextId
    ensures Invariant(PersistAll(db, sourceId, cands, fails, now).db)
    decreases |cands|
  {
    if |cands| > 0 {
      var step := PersistOne(db, sourceId, cands[0], InsertFails(fails, 0), now);
      PersistOnePreservesInvariant(db, sourceId, cands[0], InsertFails(fails, 0), now);
      PersistPreservesInvariant(step.db, sourceId, cands[1..], Drop(fails, 1), now);
    }
  }

  /**
   * What the loop can promise of the articles it adds, given candidates as
   * the extractor makes them: the source id, the discovery time, a title,
   * a 64-character hash, a short enough summary, and no author or
   * publication date. The title's upper bound and the URL tag are not
   * guaranteed.
   */
  predicate StoredFromCandidate(a: Article, sourceId: ObjectId, now: Time)
  {
    && a.sourceId == sourceId
    && a.discoveredAt == now
    && ArticleSourceIdTag(a)
    && |a.title| >= 1
    && ArticleHashTag(a)
    && ArticleSummaryTag(a)
    && a.author.None?
    && a.publishedAt.None?
  }

  lemma NewArticleTagged(sha: Sha256, id: ObjectId, sourceId: ObjectId, c: ArticleData, now: Time)
    requires sourceId != NilId && WellFormed(sha, c)
    ensures StoredFromCandidate(ToArticle(id, sourceId, c, now), sourceId, now)
  {
  }

  /** The article was built from one of the candidates, for this source, at `now`. */
  predicate FromCandidate(a: Article, sourceId: ObjectId, cands: seq<ArticleData>, now: Time)
  {
    exists c :: c in cands && a == ToArticle(a.id, sourceId, c, now)
  }

  /** Every article of `articles` from position `from` on was built from a candidate. */
  predicate AllFromCandidates(articles: seq<Article>, from: int, sourceId: ObjectId, cands: seq<ArticleData>, now: Time)
  {
    forall k :: from <= k < |articles| && 0 <= k ==> FromCandidate(articles[k], sourceId, cands, now)
  }

  /** Every article the loop adds was built from a candidate. */
  lemma {:induction false} PersistedFromCandidates(
    db: Db, sourceId: ObjectId, cands: seq<ArticleData>, fails: seq<bool>, now: Time)
    ensures AllFromCandidates(PersistAll(db, sourceId, cands, fails, now).db.articles, |db.articles|, sourceId, cands, now)
    decreases |cands|
  {
    if |cands| > 0 {
      var step := PersistOne(db, sourceId, cands[0], InsertFails(fails, 0), now);
      PersistedFromCandidates(step.db, sourceId, cands[1..], Drop(fails, 1), now);
      var rest := PersistAll(step.db, sourceId, cands[1..], Drop(fails, 1), now);
      var r := PersistAll(db, sourceId, cands, fails, now);
      assert r.db == rest.db;
      assert AllFromCandidates(rest.db.articles, |step.db.articles|, sourceId, cands[1..], now);
      forall k | |db.articles| <= k < |r.db.articles|
        ensures FromCandidate(r.db.articles[k], sourceId, cands, now)
      {
        if k >= |step.db.articles| {
          var a := rest.db.articles[k];
          assert FromCandidate(a, sourceId, cands[1..], now);
          var c :| c in cands[1..] && a == ToArticle(a.id, sourceId, c, now);
          assert c in cands;
        } else {
          assert rest.db.articles[..|step.db.articles|] == step.db.articles;
          assert step.db.articles[k] == ToArticle(db.nextId, sourceId, cands[0], now);
          assert cands[0] in cands;
        }
      }
    }
  }

  lemma PersistedArticlesTagged(
    sha: Sha256, db: Db, sourceId: ObjectId, cands: seq<ArticleData>, fails: seq<bool>, now: Time)
    requires sourceId != NilId
    requires forall c :: c in cands ==> WellFormed(sha, c)
    ensures var r := PersistAll(db, sourceId, cands, fails, now);
      forall k :: |db.articles| <= k < |r.db.articles| ==> StoredFromCandidate(r.db.articles[k], sourceId, now)
  {
    var r := PersistAll(db, sourceId, cands, fails, now);
    PersistedFromCandidates(db, sourceId, cands, fails, now);
    forall k | |db.articles| <= k < |r.db.articles|
      ensures StoredFromCandidate(r.db.articles[k], sourceId, now)
    {
      var a := r.db.articles[k];
      assert FromCandidate(a, sourceId, cands, now);
      var c :| c in cands && a == ToArticle(a.id, sourceId, c, now);
      NewArticleTagged(sha, a.id, sourceId, c, now);
    }
  }

  // ---------------------------------------------------------------- source transitions

  /** Step 2: `last_attempt_at` is stamped, nothing else. */
  function RecordAttempt(s: Source, now: Time): (r: Source)
    ensures r.lastAttemptAt == Some(now)
    ensures r.(lastAttemptAt := s.lastAttemptAt) == s
  {
    s.(lastAttemptAt := Some(now))
  }

  /** A failed extraction: error status and message, one more failed crawl. */
  function RecordFailure(s: Source, message: string, now: Time): (r: Source)
    ensures r.status == Error && r.lastError == message && r.updatedAt == now
    ensures r.failedCrawls == s.failedCrawls + 1
    ensures r == s.(status := r.status, lastError := r.lastError, updatedAt := r.updatedAt,
                    failedCrawls := r.failedCrawls)
  {
    s.(status := Error, lastError := message, updatedAt := now, failedCrawls := s.failedCrawls + 1)
  }

  /** A completed crawl: active again, counters bumped by one crawl and `saved` articles. */
  function RecordSuccess(s: Source, saved: nat, now: Time): (r: Source)
    ensures r.status == Active && r.lastError == "" && r.updatedAt == now
    ensures r.lastCrawledAt == Some(now)
    ensures r.successfulCrawls == s.successfulCrawls + 1
    ensures r.totalArticles == s.totalArticles + saved
    ensures r == s.(status := r.status, lastError := r.lastError, updatedAt := r.updatedAt,
                    lastCrawledAt := r.lastCrawledAt, successfulCrawls := r.successfulCrawls,
                    totalArticles := r.totalArticles)
  {
    s.(status := Active, lastCrawledAt := Some(now), lastError := "", updatedAt := now,
       successfulCrawls := s.successfulCrawls + 1, totalArticles := s.totalArticles + saved)
  }

  // ---------------------------------------------------------------- CrawlSource

  /** Store failures during one crawl: the loop's inserts and the retention step. */
  datatype CrawlFaults = CrawlFaults(insertFails: seq<bool>, cleanupFails: bool)

  const NoFaults := CrawlFaults([], false)

  datatype Crawled = Crawled(db: Db, error: Option<string>)

  /**
   * `CrawlSource`, with the page given as the fetch outcome and one `now`
   * for every clock reading of the call.
   */
  function CrawlSource(sha: Sha256, db: Db, sourceId: ObjectId, fetch: FetchOutcome, now: Time, faults: CrawlFaults)
    : (r: Crawled)
    ensures FindSource(db.sources, sourceId).None? ==> r == Crawled(db, Some("source not found: " + NoDocuments))
    ensures r.db.subscriptions == db.subscriptions
    ensures |r.db.sources| == |db.sources|
    ensures r.error.Some? ==> r.db.articles == db.articles
  {
    match FindSource(db.sources, sourceId)
    case None => Crawled(db, Some("source not found: " + NoDocuments))
    case Some(source) =>
      var attempted := RecordAttempt(source, now);
      Conclude(db.(sources := ReplaceSource(db.sources, attempted)), sourceId, attempted,
               FetchArticles(sha, fetch, source.url), now, faults)
  }

  /**
   * The rest of a crawl once the attempt is stamped (`db1`, `attempted`):
   * an extraction error marks the source failed; otherwise the candidates
   * are persisted, the source's oldest articles are pruned and the source
   * is marked crawled. A failed retention step does not fail the crawl.
   */
  function Conclude(db1: Db, sourceId: ObjectId, attempted: Source, extracted: Result<seq<ArticleData>>,
                    now: Time, faults: CrawlFaults): (r: Crawled)
    ensures r.db.subscriptions == db1.subscriptions
    ensures |r.db.sources| == |db1.sources|
    ensures r.error.Some? <==> extracted.Err?
    ensures extracted.Err? ==> r.error == Some("failed to extract articles: " + extracted.error)
    ensures r.error.Some? ==> r.db.articles == db1.articles
  {
    match extracted
    case Err(message) =>
      Crawled(db1.(sources := ReplaceSource(db1.sources, RecordFailure(attempted, message, now))),
              Some("failed to extract articles: " + message))
    case Ok(cands) =>
      var persisted := PersistAll(db1, sourceId, cands, faults.insertFails, now);
      var db2 := persisted.db.(articles := CleanupOldArticles(persisted.db.articles, sourceId, faults.cleanupFails));
      Crawled(db2.(sources := ReplaceSource(db2.sources, RecordSuccess(attempted, persisted.saved, now))), None)
  }

  /** Updating a source record by id, when the update keeps its id and URL, keeps the source indexes. */
  lemma ReplaceSourceKeepsKeys(ss: seq<Source>, s: Source)
    requires SourcesIndexed(ss)
    requires forall i :: 0 <= i < |ss| && ss[i].id == s.id ==> ss[i].url == s.url
    ensures forall i :: 0 <= i < |ss| ==>
      ReplaceSource(ss, s)[i].id == ss[i].id && ReplaceSource(ss, s)[i].url == ss[i].url
    ensures SourcesIndexed(ReplaceSource(ss, s))
  {
    var r := ReplaceSource(ss, s);
    forall i, j | 0 <= i < j < |r|
      ensures DistinctSourceIds(r[i], r[j]) && DistinctSourceUrls(r[i], r[j])
    {
      assert DistinctSourceIds(ss[i], ss[j]) && DistinctSourceUrls(ss[i], ss[j]);
    }
  }

  lemma FindAfterReplace(ss: seq<Source>, s: Source)
    requires FindSource(ss, s.id).Some?
    ensures FindSource(ReplaceSource(ss, s), s.id) == Some(s)
  {
    var r := ReplaceSource(ss, s);
    var f := FindSource(r, s.id);
    var k :| 0 <= k < |r| && r[k] == f.value;
    assert ss[k].id == s.id;
  }

  /**
   * A failed extraction: the attempt is stamped, the source is marked with
   * the error and one more failed crawl, its other fields (successful
   * crawls, article total, last crawl time) are unchanged, no article is
   * touched, and the error is returned.
   */
  lemma CrawlFailure(sha: Sha256, db: Db, sourceId: ObjectId, fetch: FetchOutcome, now: Time, faults: CrawlFaults,
                     source: Source, message: string)
    requires FindSource(db.sources, sourceId) == Some(source)
    requires FetchArticles(sha, fetch, source.url) == Err(message)
    ensures var r := CrawlSource(sha, db, sourceId, fetch, now, faults);
      && r.error == Some("failed to extract articles: " + message)
      && r.db.articles == db.articles
      && FindSource(r.db.sources, sourceId) == Some(source.(
           status := Error, lastError := message, updatedAt := now,
           failedCrawls := source.failedCrawls + 1, lastAttemptAt := Some(now)))
  {
    FailedSourceStored(sha, db, sourceId, fetch, now, faults, source, message);
    FailureFields(source, message, now);
  }

  lemma FailedSourceStored(sha: Sha256, db: Db, sourceId: ObjectId, fetch: FetchOutcome, now: Time,
                           faults: CrawlFaults, source: Source, message: string)
    requires FindSource(db.sources, sourceId) == Some(source)
    requires FetchArticles(sha, fetch, source.url) == Err(message)
    ensures var r := CrawlSource(sha, db, sourceId, fetch, now, faults);
      FindSource(r.db.sources, sourceId) == Some(RecordFailure(RecordAttempt(source, now), message, now))
  {
    var attempted := RecordAttempt(source, now);
    var db1 := db.(sources := ReplaceSource(db.sources, attempted));
    FindAfterReplace(db.sources, attempted);
    ConcludeFailure(db1, sourceId, attempted, Err(message), now, faults);
  }

  lemma FailureFields(source: Source, message: string, now: Time)
    ensures RecordFailure(RecordAttempt(source, now), message, now) == source.(
      status := Error, lastError := message, updatedAt := now,
      failedCrawls := source.failedCrawls + 1, lastAttemptAt := Some(now))
  {
  }

  lemma ConcludeFailure(db1: Db, sourceId: ObjectId, attempted: Source, extracted: Result<seq<ArticleData>>,
                        now: Time, faults: CrawlFaults)
    requires extracted.Err? && attempted.id == sourceId
    requires FindSource(db1.sources, sourceId) == Some(attempted)
    ensures FindSource(Conclude(db1, sourceId, attempted, extracted, now, faults).db.sources, sourceId)
         == Some(RecordFailure(attempted, extracted.error, now))
  {
    FindAfterReplace(db1.sources, RecordFailure(attempted, extracted.error, now));
  }

  /**
   * A successful crawl: the source is stored as the attempt stamp followed
   * by the success record (`SuccessFields` spells the result out: active,
   * no error, one more successful crawl, `total_articles` raised by the
   * number saved, `last_crawled_at` equal to the `last_attempt_at` stamped
   * at the start), whether or not the retention step failed.
   */
  lemma CrawlSuccess(sha: Sha256, db: Db, sourceId: ObjectId, fetch: FetchOutcome, now: Time, faults: CrawlFaults,
                     source: Source, cands: seq<ArticleData>)
    requires FindSource(db.sources, sourceId) == Some(source)
    requires FetchArticles(sha, fetch, source.url) == Ok(cands)
    ensures var saved := PersistAll(db, sourceId, cands, faults.insertFails, now).saved;
      var r := CrawlSource(sha, db, sourceId, fetch, now, faults);
      && r.error.None?
      && FindSource(r.db.sources, sourceId) == Some(RecordSuccess(RecordAttempt(source, now), saved, now))
  {
    var attempted := RecordAttempt(source, now);
    var db1 := db.(sources := ReplaceSource(db.sources, attempted));
    PersistSavedIgnoresSources(db, db1, sourceId, cands, faults.insertFails, now);
    FindAfterReplace(db.sources, attempted);
    ConcludeSuccess(db1, sourceId, attempted, Ok(cands), now, faults);
  }

  /** The fields a successful crawl leaves on its source. */
  lemma SuccessFields(source: Source, saved: nat, now: Time)
    ensures RecordSuccess(RecordAttempt(source, now), saved, now) == source.(
      status := Active, lastError := "", updatedAt := now,
      lastCrawledAt := Some(now), lastAttemptAt := Some(now),
      successfulCrawls := source.successfulCrawls + 1,
      totalArticles := source.totalArticles + saved)
  {
  }

  lemma ConcludeSuccess(db1: Db, sourceId: ObjectId, attempted: Source, extracted: Result<seq<ArticleData>>,
                        now: Time, faults: CrawlFaults)
    requires extracted.Ok? && attempted.id == sourceId
    requires FindSource(db1.sources, sourceId) == Some(attempted)
    ensures FindSource(Conclude(db1, sourceId, attempted, extracted, now, faults).db.sources, sourceId)
         == Some(RecordSuccess(attempted, PersistAll(db1, sourceId, extracted.value, faults.insertFails, now).saved, now))
  {
    var persisted := PersistAll(db1, sourceId, extracted.value, faults.insertFails, now);
    var db2 := persisted.db.(articles := CleanupOldArticles(persisted.db.articles, sourceId, faults.cleanupFails));
    assert db2.sources == db1.sources;
    FindAfterReplace(db2.sources, RecordSuccess(attempted, persisted.saved, now));
  }

  /** The persist loop reads only the articles and the id counter. */
  lemma {:induction false} PersistSavedIgnoresSources(
    db: Db, db2: Db, sourceId: ObjectId, cands: seq<ArticleData>, fails: seq<bool>, now: Time)
    requires db.articles == db2.articles && db.nextId == db2.nextId
    ensures PersistAll(db, sourceId, cands, fails, now).saved == PersistAll(db2, sourceId, cands, fails, now).saved
    ensures PersistAll(db, sourceId, cands, fails, now).db.articles
         == PersistAll(db2, sourceId, cands, fails, now).db.articles
    decreases |cands|
  {
    if |cands| > 0 {
      var s1 := PersistOne(db, sourceId, cands[0], InsertFails(fails, 0), now);
      var s2 := PersistOne(db2, sourceId, cands[0], InsertFails(fails, 0), now);
      PersistSavedIgnoresSources(s1.db, s2.db, sourceId, cands[1..], Drop(fails, 1), now);
    }
  }

  /** A crawl keeps the store's invariant. */
  lemma CrawlPreservesInvariant(sha: Sha256, db: Db, sourceId: ObjectId, fetch: FetchOutcome, now: Time, faults: CrawlFaults)
    requires Invariant(db)
    ensures Invariant(CrawlSource(sha, db, sourceId, fetch, now, faults).db)
  {
    var found := FindSource(db.sources, sourceId);
    if found.Some? {
      var source := found.value;
      var attempted := RecordAttempt(source, now);
      SameIdSameSource(db.sources, source);
      ReplaceSourceKeepsKeys(db.sources, attempted);
      var db1 := db.(sources := ReplaceSource(db.sources, attempted));
      assert IdsIssued(db1);
      ConcludePreservesInvariant(db1, sourceId, attempted, FetchArticles(sha, fetch, source.url), now, faults);
    }
  }

  lemma ConcludePreservesInvariant(db1: Db, sourceId: ObjectId, attempted: Source,
                                   extracted: Result<seq<ArticleData>>, now: Time, faults: CrawlFaults)
    requires Invariant(db1) && 0 < sourceId < db1.nextId
    requires forall i :: 0 <= i < |db1.sources| && db1.sources[i].id == attempted.id ==>
      db1.sources[i].url == attempted.url
    ensures Invariant(Conclude(db1, sourceId, attempted, extracted, now, faults).db)
  {
    match extracted
    case Err(message) =>
      ReplaceSourceKeepsKeys(db1.sources, RecordFailure(attempted, message, now));
    case Ok(cands) =>
      PersistPreservesInvariant(db1, sourceId, cands, faults.insertFails, now);
      var persisted := PersistAll(db1, sourceId, cands, faults.insertFails, now);
      CleanupPreservesInvariant(persisted.db, sourceId, faults.cleanupFails);
      var db2 := persisted.db.(articles := CleanupOldArticles(persisted.db.articles, sourceId, faults.cleanupFails));
      ReplaceSourceKeepsKeys(db2.sources, RecordSuccess(attempted, persisted.saved, now));
      assert IdsIssued(db2.(sources := ReplaceSource(db2.sources, RecordSuccess(attempted, persisted.saved, now))));
  }

  /** Under unique ids, every stored source with a given source's id has its URL. */
  lemma SameIdSameSource(ss: seq<Source>, s: Source)
    requires Pairwise(ss, DistinctSourceIds) && s in ss
    ensures forall i :: 0 <= i < |ss| && ss[i].id == s.id ==> ss[i] == s
  {
    var k :| 0 <= k < |ss| && ss[k] == s;
    forall i | 0 <= i < |ss| && ss[i].id == s.id
      ensures ss[i] == s
    {
      assert i < k ==> DistinctSourceIds(ss[i], ss[k]);
      assert k < i ==> DistinctSourceIds(ss[k], ss[i]);
    }
  }

  // ---------------------------------------------------------------- CrawlUserSources

  datatype Tally = Tally(db: Db, successes: nat, failures: nat)

  /** Crawl faults for the `i`-th crawl of a batch; crawls beyond the list see none. */
  function FaultsAt(faults: seq<CrawlFaults>, i: nat): CrawlFaults
  {
    if i < |faults| then faults[i] else NoFaults
  }

  /** The faults of the crawls after the first. */
  function LaterFaults(faults: seq<CrawlFaults>): (r: seq<CrawlFaults>)
    ensures forall i: nat :: FaultsAt(r, i) == FaultsAt(faults, i + 1)
  {
    if |faults| > 0 then faults[1..] else []
  }

  /**
   * The crawls of `CrawlUserSources` in order, each seeing the store the
   * previous one left; `web` gives the fetch outcome for a URL.
   */
  function CrawlEach(sha: Sha256, db: Db, ids: seq<ObjectId>, web: string -> FetchOutcome, now: Time,
                     faults: seq<CrawlFaults>): (r: Tally)
    ensures r.successes + r.failures == |ids|
    decreases |ids|
  {
    if |ids| == 0 then Tally(db, 0, 0)
    else
      var one := CrawlStep(sha, db, ids[0], web, now, FaultsAt(faults, 0));
      var rest := CrawlEach(sha, one.db, ids[1..], web, now, LaterFaults(faults));
      if one.error.None? then Tally(rest.db, rest.successes + 1, rest.failures)
      else Tally(rest.db, rest.successes, rest.failures + 1)
  }

  /** One crawl of a batch: the page is whatever `web` serves for the source's URL. */
  function CrawlStep(sha: Sha256, db: Db, sourceId: ObjectId, web: string -> FetchOutcome, now: Time,
                     faults: CrawlFaults): (r: Crawled)
    ensures FindSource(db.sources, sourceId).Some? ==>
      r == CrawlSource(sha, db, sourceId, web(FindSource(db.sources, sourceId).value.url), now, faults)
    ensures r.db.subscriptions == db.subscriptions
  {
    var fetch := match FindSource(db.sources, sourceId) case Some(s) => web(s.url) case None => FetchFailed("");
    CrawlSource(sha, db, sourceId, fetch, now, faults)
  }

  /** The batch's first crawl, then the rest. */
  lemma CrawlEachUnfold(sha: Sha256, db: Db, ids: seq<ObjectId>, web: string -> FetchOutcome, now: Time,
                        faults: seq<CrawlFaults>)
    requires |ids| > 0
    ensures var one := CrawlStep(sha, db, ids[0], web, now, FaultsAt(faults, 0));
      var rest := CrawlEach(sha, one.db, ids[1..], web, now, LaterFaults(faults));
      && CrawlEach(sha, db, ids, web, now, faults).db == rest.db
      && CrawlEach(sha, db, ids, web, now, faults).successes
         == rest.successes + (if one.error.None? then 1 else 0)
      && CrawlEach(sha, db, ids, web, now, faults).failures
         == rest.failures + (if one.error.None? then 0 else 1)
  {
  }

  /** The source ids of the listed subscriptions, in listing order. */
  function SourceIds(listed: seq<SubscriptionWithSource>): (r: seq<ObjectId>)
    ensures |r| == |listed|
    ensures forall i :: 0 <= i < |listed| ==> r[i] == listed[i].source.id
  {
    seq(|listed|, i requires 0 <= i < |listed| => listed[i].source.id)
  }

  datatype UserCrawl = UserCrawl(db: Db, successes: nat, failures: nat, error: Option<string>)

  /**
   * `CrawlUserSources`: a listing error is returned with both counts zero;
   * otherwise every listed source is crawled in turn, a failure being
   * counted and the loop going on.
   */
  method CrawlUserSources(sha: Sha256, db: Db, userId: string, web: string -> FetchOutcome, now: Time,
                          listFault: Option<string>, faults: seq<CrawlFaults>)
    returns (r: UserCrawl)
    ensures listFault.Some? ==> r == UserCrawl(db, 0, 0, Some(ListSubscriptions(db, userId, listFault).error))
    ensures listFault.None? ==>
      && r.error.None?
      && r.successes + r.failures == |ListSubscriptions(db, userId, None).value|
      && Tally(r.db, r.successes, r.failures)
         == CrawlEach(sha, db, SourceIds(ListSubscriptions(db, userId, None).value), web, now, faults)
  {
    var listed := ListSubscriptions(db, userId, listFault);
    if listed.Err? {
      return UserCrawl(db, 0, 0, Some(listed.error));
    }
    var t := CrawlAll(sha, db, SourceIds(listed.value), web, now, faults);
    r := UserCrawl(t.db, t.successes, t.failures, None);
  }

  /** The crawl loop of `CrawlUserSources`: every id in turn, counting outcomes. */
  method CrawlAll(sha: Sha256, db: Db, ids: seq<ObjectId>, web: string -> FetchOutcome, now: Time,
                  faults: seq<CrawlFaults>)
    returns (t: Tally)
    ensures t == CrawlEach(sha, db, ids, web, now, faults)
  {
    var cur, successes, failures := db, 0, 0;
    var rest := faults;
    var i := 0;
    while i < |ids|
      invariant 0 <= i <= |ids|
      invariant CrawlEach(sha, cur, ids[i..], web, now, rest).db == CrawlEach(sha, db, ids, web, now, faults).db
      invariant successes + CrawlEach(sha, cur, ids[i..], web, now, rest).successes
             == CrawlEach(sha, db, ids, web, now, faults).successes
      invariant failures + CrawlEach(sha, cur, ids[i..], web, now, rest).failures
             == CrawlEach(sha, db, ids, web, now, faults).failures
    {
      assert ids[i..][1..] == ids[i + 1..];
      CrawlEachUnfold(sha, cur, ids[i..], web, now, rest);
      var one := CrawlStep(sha, cur, ids[i], web, now, FaultsAt(rest, 0));
      if one.error.None? {
        successes := successes + 1;
      } else {
        failures := failures + 1;
      }
      cur := one.db;
      rest := LaterFaults(rest);
      i := i + 1;
    }
    assert ids[i..] == [];
    t := Tally(cur, successes, failures);
  }

  /** A batch of crawls keeps the store's invariant. */
  lemma {:induction false} CrawlEachPreservesInvariant(
    sha: Sha256, db: Db, ids: seq<ObjectId>, web: string -> FetchOutcome, now: Time, faults: seq<CrawlFaults>)
    requires Invariant(db)
    ensures Invariant(CrawlEach(sha, db, ids, web, now, faults).db)
    decreases |ids|
  {
    if |ids| > 0 {
      var fetch := match FindSource(db.sources, ids[0]) case Some(s) => web(s.url) case None => FetchFailed("");
      CrawlPreservesInvariant(sha, db, ids[0], fetch, now, FaultsAt(faults, 0));
      var one := CrawlStep(sha, db, ids[0], web, now, FaultsAt(faults, 0));
      CrawlEachPreservesInvariant(sha, one.db, ids[1..], web, now, LaterFaults(faults));
    }
  }
}

=== FILE: extractor.dfy ===
/**
 * The extraction strategy chain of services/extractorService.go, after the
 * page has been fetched and parsed. The parsed page is given as the elements
 * each strategy's selectors pick out, in document order; what the model
 * computes from them is what the service computes: trimmed titles, filtered
 * candidates, absolutised URLs, truncated summaries, content hashes, the
 * first strategy that yields anything, and the 50-candidate cap.
 */
module Extractor {
  import opened Wrappers
  import opened Text
  import opened Seqs
  import opened HashHelper
  import opened Models

  /** `ArticleData`: a candidate article as extracted, before persistence. */
  datatype ArticleData = ArticleData(
    title: string,
    url: string,
    summary: string,
    publishedAt: Option<Time>,
    author: string,
    contentHash: string)

  /** A selected link: its text and its `href` attribute, if it has one. */
  datatype Link = Link(text: string, href: Option<string>)

  /**
   * What `extractFromSelection` reads from one container: the text of its
   * first h1/h2/h3/a element, the `href` of its first link, and the text of
   * its first paragraph (empty text when there is no such element).
   */
  datatype Entry = Entry(headingText: string, linkHref: Option<string>, paragraph: string)

  /** The parsed document, as the element lists the five strategies select. */
  datatype Page = Page(
    hackerNewsRows: seq<Link>,    // `tr.athing`, then its first `span.titleline > a`
    lobstersRows: seq<Link>,      // `li.story`, then its first `a.u-url`
    articleTags: seq<Entry>,      // `article`
    classContainers: seq<Entry>,  // `div.post, div.entry, div.article-item, div.story, li.story`
    headingLinks: seq<Link>)      // `h1 a, h2 a, h3 a`

  const MaxArticlesPerCrawl := 50
  const SummaryLimit := 500
  const Ellipsis := "..."
  const MinGenericTitle := 10
  const NoArticlesFound := "no articles found on page"
  const HackerNewsHost := "news.ycombinator.com"
  const HackerNewsBase := "https://news.ycombinator.com/"
  const LobstersHost := "lobste.rs"
  const LobstersBase := "https://lobste.rs"

  // ---------------------------------------------------------------- candidate rules

  /** Prefixes `base` to a URL that starts with `prefix`; any other URL is kept as is. */
  function Rebase(url: string, prefix: string, base: string): (r: string)
    ensures HasPrefix(url, prefix) ==> r == base + url
    ensures !HasPrefix(url, prefix) ==> r == url
  {
    if HasPrefix(url, prefix) then base + url else url
  }

  /**
   * The trimmed first paragraph, cut to its first 500 characters plus "..."
   * when longer than 500.
   */
  function TruncateSummary(paragraph: string): (r: string)
    ensures |r| <= SummaryLimit + |Ellipsis|
    ensures |TrimSpace(paragraph)| <= SummaryLimit ==> r == TrimSpace(paragraph)
    ensures |TrimSpace(paragraph)| > SummaryLimit ==>
      |r| == SummaryLimit + |Ellipsis| && HasPrefix(TrimSpace(paragraph), r[..SummaryLimit])
      && r[SummaryLimit..] == Ellipsis
  {
    var s := TrimSpace(paragraph);
    if |s| > SummaryLimit then s[..SummaryLimit] + Ellipsis else s
  }

  /** How a link-only strategy treats its links: minimum title length and URL rebasing. */
  datatype LinkRule = LinkRule(minTitle: nat, relativePrefix: string, base: string)

  /** `extractHackerNews`: any non-empty title; "item?id=" links are made absolute. */
  const HackerNewsRule := LinkRule(1, "item?id=", HackerNewsBase)

  /** `extractLobsters`: any non-empty title; "/" links are made absolute. */
  const LobstersRule := LinkRule(1, "/", LobstersBase)

  /** Strategy 5: titles of at least 10 characters; "/" links are resolved against the source. */
  function HeadingRule(sourceUrl: string): LinkRule
  {
    LinkRule(MinGenericTitle, "/", sourceUrl)
  }

  /**
   * One link under a link-only rule. A missing `href` or a trimmed title
   * shorter than the rule's minimum drops the link; the candidate has no
   * summary and its hash covers the title alone.
   */
  function LinkCandidate(sha: Sha256, rule: LinkRule, l: Link): (r: Option<ArticleData>)
    ensures r.Some? <==> l.href.Some? && |TrimSpace(l.text)| >= rule.minTitle
    ensures r.Some? ==>
      && r.value.title == TrimSpace(l.text)
      && r.value.url == Rebase(l.href.value, rule.relativePrefix, rule.base)
      && r.value.summary == ""
      && r.value.contentHash == GenerateContentHash(sha, r.value.title, "")
  {
    var title := TrimSpace(l.text);
    if l.href.None? || |title| < rule.minTitle then None
    else
      Some(ArticleData(
        title,
        Rebase(l.href.value, rule.relativePrefix, rule.base),
        "",
        None,
        "",
        GenerateContentHash(sha, title, "")))
  }

  /**
   * `extractFromSelection`: a container yields a candidate exactly when its
   * first link has a non-empty `href` and its trimmed title has at least 10
   * characters; the summary is the truncated first paragraph, and the hash
   * covers title and summary.
   */
  function EntryCandidate(sha: Sha256, sourceUrl: string, e: Entry): (r: Option<ArticleData>)
    ensures r.Some? <==>
      e.linkHref.Some? && e.linkHref.value != "" && |TrimSpace(e.headingText)| >= MinGenericTitle
    ensures r.Some? ==>
      && r.value.title == TrimSpace(e.headingText)
      && r.value.url == Rebase(e.linkHref.value, "/", sourceUrl)
      && r.value.summary == TruncateSummary(e.paragraph)
      && r.value.contentHash == GenerateContentHash(sha, r.value.title, r.value.summary)
  {
    var title := TrimSpace(e.headingText);
    if e.linkHref.None? || e.linkHref.value == "" || title == "" || |title| < MinGenericTitle then None
    else
      var summary := TruncateSummary(e.paragraph);
      Some(ArticleData(
        title,
        Rebase(e.linkHref.value, "/", sourceUrl),
        summary,
        None,
        "",
        GenerateContentHash(sha, title, summary)))
  }

  /**
   * What every candidate satisfies whatever strategy produced it: a trimmed,
   * non-empty title, a summary of at most 503 characters, no author or
   * publication time, and the content hash of its title and summary.
   */
  predicate WellFormed(sha: Sha256, c: ArticleData)
  {
    && |c.title| > 0
    && TrimSpace(c.title) == c.title
    && |c.summary| <= SummaryLimit + |Ellipsis|
    && c.publishedAt.None?
    && c.author == ""
    && c.contentHash == GenerateContentHash(sha, c.title, c.summary)
  }

  lemma LinkCandidateWellFormed(sha: Sha256, rule: LinkRule, l: Link)
    requires rule.minTitle >= 1
    requires LinkCandidate(sha, rule, l).Some?
    ensures WellFormed(sha, LinkCandidate(sha, rule, l).value)
  {
    TrimSpaceOfTrimmed(TrimSpace(l.text));
  }

  lemma EntryCandidateWellFormed(sha: Sha256, sourceUrl: string, e: Entry)
    requires EntryCandidate(sha, sourceUrl, e).Some?
    ensures WellFormed(sha, EntryCandidate(sha, sourceUrl, e).value)
  {
    TrimSpaceOfTrimmed(TrimSpace(e.headingText));
  }

  // ---------------------------------------------------------------- strategies

  /**
   * A strategy over links (Hacker News rows, Lobsters rows, heading links):
   * the candidates of the selected links, in document order.
   */
  function LinkStrategy(sha: Sha256, rule: LinkRule, links: seq<Link>): (r: seq<ArticleData>)
    requires rule.minTitle >= 1
    ensures forall c :: c in r ==> WellFormed(sha, c)
  {
    var r := FilterMap(links, (l: Link) => LinkCandidate(sha, rule, l));
    assert forall c :: c in r ==> WellFormed(sha, c) by {
      forall c | c in r
        ensures WellFormed(sha, c)
      {
        var l :| l in links && LinkCandidate(sha, rule, l) == Some(c);
        LinkCandidateWellFormed(sha, rule, l);
      }
    }
    r
  }

  /** The strategy yields a candidate exactly when one of its inputs makes it. */
  lemma {:induction false} LinkStrategyCandidates(sha: Sha256, rule: LinkRule, links: seq<Link>, c: ArticleData)
    requires rule.minTitle >= 1
    ensures c in LinkStrategy(sha, rule, links) <==>
      exists l :: l in links && LinkCandidate(sha, rule, l) == Some(c)
  {
    if exists l :: l in links && LinkCandidate(sha, rule, l) == Some(c) {
      var l :| l in links && LinkCandidate(sha, rule, l) == Some(c);
      FilterMapComplete(links, (l: Link) => LinkCandidate(sha, rule, l), l);
    }
  }

  /**
   * A strategy over containers (article tags, post classes): the
   * candidates of the selected containers, in document order.
   */
  function EntryStrategy(sha: Sha256, sourceUrl: string, entries: seq<Entry>): (r: seq<ArticleData>)
    ensures forall c :: c in r ==> WellFormed(sha, c)
  {
    var r := FilterMap(entries, (e: Entry) => EntryCandidate(sha, sourceUrl, e));
    assert forall c :: c in r ==> WellFormed(sha, c) by {
      forall c | c in r
        ensures WellFormed(sha, c)
      {
        var e :| e in entries && EntryCandidate(sha, sourceUrl, e) == Some(c);
        EntryCandidateWellFormed(sha, sourceUrl, e);
      }
    }
    r
  }

  /** The strategy yields a candidate exactly when one of its inputs makes it. */
  lemma {:induction false} EntryStrategyCandidates(sha: Sha256, sourceUrl: string, entries: seq<Entry>, c: ArticleData)
    ensures c in EntryStrategy(sha, sourceUrl, entries) <==>
      exists e :: e in entries && EntryCandidate(sha, sourceUrl, e) == Some(c)
  {
    if exists e :: e in entries && EntryCandidate(sha, sourceUrl, e) == Some(c) {
      var e :| e in entries && EntryCandidate(sha, sourceUrl, e) == Some(c);
      FilterMapComplete(entries, (e: Entry) => EntryCandidate(sha, sourceUrl, e), e);
    }
  }

  /**
   * The five strategies in priority order, each as it would run on its own;
   * the two site rules yield nothing unless the source URL names their site.
   */
  function StrategyOutputs(sha: Sha256, page: Page, sourceUrl: string): (r: seq<seq<ArticleData>>)
    ensures |r| == 5
  {
    [ if Contains(sourceUrl, HackerNewsHost)
      then LinkStrategy(sha, HackerNewsRule, page.hackerNewsRows) else [],
      if Contains(sourceUrl, LobstersHost)
      then LinkStrategy(sha, LobstersRule, page.lobstersRows) else [],
      EntryStrategy(sha, sourceUrl, page.articleTags),
      EntryStrategy(sha, sourceUrl, page.classContainers),
      LinkStrategy(sha, HeadingRule(sourceUrl), page.headingLinks) ]
  }

  lemma StrategyOutputsWellFormed(sha: Sha256, page: Page, sourceUrl: string, k: int)
    requires 0 <= k < 5
    ensures forall c :: c in StrategyOutputs(sha, page, sourceUrl)[k] ==> WellFormed(sha, c)
  {
  }

  /** Strategy `k` is the first in the list to yield anything. */
  predicate Wins(outs: seq<seq<ArticleData>>, k: int)
  {
    && 0 <= k < |outs|
    && |outs[k]| > 0
    && forall j :: 0 <= j < k ==> |outs[j]| == 0
  }

  /**
   * The fallback chain: the strategies are tried in order and the first
   * non-empty result is taken; later ones are not consulted.
   */
  function FirstYield(outs: seq<seq<ArticleData>>): (r: seq<ArticleData>)
    ensures |r| == 0 <==> forall k :: 0 <= k < |outs| ==> |outs[k]| == 0
    ensures |r| > 0 ==> exists k :: Wins(outs, k) && r == outs[k]
  {
    if |outs| == 0 then []
    else if |outs[0]| > 0 then
      assert Wins(outs, 0);
      outs[0]
    else
      var r := FirstYield(outs[1..]);
      if |r| > 0 then
        var k :| Wins(outs[1..], k) && r == outs[1..][k];
        assert Wins(outs, k + 1);
        r
      else r
  }

  /** The cap on one crawl: the first 50 candidates, or the error when there are none. */
  function Cap(found: seq<ArticleData>): (r: Result<seq<ArticleData>>)
    ensures |found| == 0 ==> r == Err(NoArticlesFound)
    ensures |found| > 0 ==> r == Ok(found[..Min(|found|, MaxArticlesPerCrawl)])
  {
    if |found| == 0 then Err(NoArticlesFound)
    else if |found| > MaxArticlesPerCrawl then Ok(found[..MaxArticlesPerCrawl])
    else assert found[..|found|] == found; Ok(found)
  }

  /**
   * `ExtractArticles` after fetch and parse: each strategy runs only while
   * every earlier one has produced nothing; the first non-empty result, cut
   * to 50 candidates, is returned, and when all five come up empty the call
   * fails with "no articles found on page".
   */
  function ExtractArticles(sha: Sha256, page: Page, sourceUrl: string): (r: Result<seq<ArticleData>>)
    ensures var outs := StrategyOutputs(sha, page, sourceUrl);
      && (r.Err? <==> forall k :: 0 <= k < 5 ==> |outs[k]| == 0)
      && (r.Err? ==> r.error == NoArticlesFound)
      && (r.Ok? ==> exists k :: Wins(outs, k)
                      && r.value == outs[k][..Min(|outs[k]|, MaxArticlesPerCrawl)])
    ensures r.Ok? ==> 1 <= |r.value| <= MaxArticlesPerCrawl
    ensures r.Ok? ==> forall c :: c in r.value ==> WellFormed(sha, c)
  {
    ChainFacts(sha, page, sourceUrl);
    Cap(FirstYield(StrategyOutputs(sha, page, sourceUrl)))
  }

  lemma ChainFacts(sha: Sha256, page: Page, sourceUrl: string)
    ensures var outs := StrategyOutputs(sha, page, sourceUrl);
      var r := Cap(FirstYield(outs));
      && (r.Err? <==> forall k :: 0 <= k < 5 ==> |outs[k]| == 0)
      && (r.Ok? ==> exists k :: Wins(outs, k)
                      && r.value == outs[k][..Min(|outs[k]|, MaxArticlesPerCrawl)])
      && (r.Ok? ==> forall c :: c in r.value ==> WellFormed(sha, c))
  {
    var outs := StrategyOutputs(sha, page, sourceUrl);
    var found := FirstYield(outs);
    if |found| > 0 {
      var k :| Wins(outs, k) && found == outs[k];
      var r := found[..Min(|found|, MaxArticlesPerCrawl)];
      assert forall c :: c in r ==> c in outs[k];
      StrategyOutputsWellFormed(sha, page, sourceUrl, k);
    }
  }

  // ---------------------------------------------------------------- chain properties

  /** Without "news.ycombinator.com" in the source URL, the Hacker News rows are never read. */
  lemma HackerNewsRuleNeedsHost(sha: Sha256, page: Page, sourceUrl: string, rows: seq<Link>)
    requires !Contains(sourceUrl, HackerNewsHost)
    ensures ExtractArticles(sha, page, sourceUrl)
         == ExtractArticles(sha, page.(hackerNewsRows := rows), sourceUrl)
  {
  }

  /** Without "lobste.rs" in the source URL, the Lobsters rows are never read. */
  lemma LobstersRuleNeedsHost(sha: Sha256, page: Page, sourceUrl: string, rows: seq<Link>)
    requires !Contains(sourceUrl, LobstersHost)
    ensures ExtractArticles(sha, page, sourceUrl)
         == ExtractArticles(sha, page.(lobstersRows := rows), sourceUrl)
  {
  }

  /**
   * Once the `article`-tag strategy yields a candidate, the class-name and
   * heading strategies do not matter: a page matching both generic patterns
   * is extracted from its `article` tags.
   */
  lemma ArticleTagsWinOverLaterStrategies(
    sha: Sha256, page: Page, sourceUrl: string, containers: seq<Entry>, headings: seq<Link>)
    requires |EntryStrategy(sha, sourceUrl, page.articleTags)| > 0
    ensures var other := page.(classContainers := containers, headingLinks := headings);
      && ExtractArticles(sha, page, sourceUrl) == ExtractArticles(sha, other, sourceUrl)
      && ExtractArticles(sha, page, sourceUrl).Ok?
  {
    ThirdIsArticleTags(sha, page, sourceUrl);
    EarlyStrategiesIgnoreGeneric(sha, page, sourceUrl, containers, headings, 0);
    EarlyStrategiesIgnoreGeneric(sha, page, sourceUrl, containers, headings, 1);
    EarlyStrategiesIgnoreGeneric(sha, page, sourceUrl, containers, headings, 2);
    ChainStopsAtThird(StrategyOutputs(sha, page, sourceUrl),
                      StrategyOutputs(sha, page.(classContainers := containers, headingLinks := headings), sourceUrl));
  }

  /** The first three strategies do not read the generic containers or heading links. */
  lemma EarlyStrategiesIgnoreGeneric(sha: Sha256, page: Page, sourceUrl: string, containers: seq<Entry>,
                                     headings: seq<Link>, j: int)
    requires 0 <= j < 3
    ensures StrategyOutputs(sha, page, sourceUrl)[j]
         == StrategyOutputs(sha, page.(classContainers := containers, headingLinks := headings), sourceUrl)[j]
  {
  }

  /** The third strategy is the `article`-tag one. */
  lemma ThirdIsArticleTags(sha: Sha256, page: Page, sourceUrl: string)
    ensures StrategyOutputs(sha, page, sourceUrl)[2] == EntryStrategy(sha, sourceUrl, page.articleTags)
  {
  }

  /** A chain whose third strategy yields is decided by its first three. */
  lemma ChainStopsAtThird(outs1: seq<seq<ArticleData>>, outs2: seq<seq<ArticleData>>)
    requires |outs1| == |outs2| == 5 && |outs1[2]| > 0
    requires outs1[0] == outs2[0] && outs1[1] == outs2[1] && outs1[2] == outs2[2]
    ensures FirstYield(outs1) == FirstYield(outs2) && |FirstYield(outs1)| > 0
  {
    var k :| Wins(outs1, k) && FirstYield(outs1) == outs1[k];
    assert Wins(outs1, k);
    assert 0 <= k < 5;
    assert k <= 2;
    FirstYieldDecidedByWinner(outs1, outs2, k);
  }

  /** The chain's result depends only on the strategies up to the first that yields. */
  lemma {:induction false} FirstYieldDecidedByWinner(outs1: seq<seq<ArticleData>>, outs2: seq<seq<ArticleData>>, k: int)
    requires Wins(outs1, k) && |outs2| == |outs1|
    requires forall j :: 0 <= j <= k ==> outs1[j] == outs2[j]
    ensures FirstYield(outs1) == FirstYield(outs2)
    decreases k
  {
    if k > 0 {
      assert Wins(outs1[1..], k - 1);
      FirstYieldDecidedByWinner(outs1[1..], outs2[1..], k - 1);
    }
  }

  /** The candidates come from the winning strategy in document order: a prefix of its output. */
  lemma ExtractedIsPrefixOfWinner(sha: Sha256, page: Page, sourceUrl: string)
    requires ExtractArticles(sha, page, sourceUrl).Ok?
    ensures exists k :: 0 <= k < 5 && |StrategyOutputs(sha, page, sourceUrl)[k]| > 0
                        && ExtractArticles(sha, page, sourceUrl).value <= StrategyOutputs(sha, page, sourceUrl)[k]
  {
    var outs := StrategyOutputs(sha, page, sourceUrl);
    var k :| Wins(outs, k)
      && ExtractArticles(sha, page, sourceUrl).value == outs[k][..Min(|outs[k]|, MaxArticlesPerCrawl)];
    assert outs[k][..Min(|outs[k]|, MaxArticlesPerCrawl)] <= outs[k];
  }

  // ---------------------------------------------------------------- fetch

  /**
   * The outcome of building the request, fetching the page, checking for
   * status 200 and parsing the HTML: either the parsed page or the message
   * of the first step that failed ("failed to fetch URL: ...", "bad status
   * code: ...", and so on).
   */
  datatype FetchOutcome = Fetched(page: Page) | FetchFailed(message: string)

  /** `ExtractArticles` as a whole: a fetch error is passed on, otherwise the chain runs. */
  function FetchArticles(sha: Sha256, fetch: FetchOutcome, sourceUrl: string): (r: Result<seq<ArticleData>>)
    ensures fetch.FetchFailed? ==> r == Err(fetch.message)
    ensures fetch.Fetched? ==> r == ExtractArticles(sha, fetch.page, sourceUrl)
  {
    match fetch
    case FetchFailed(message) => Err(message)
    case Fetched(page) => ExtractArticles(sha, page, sourceUrl)
  }
}

=== FILE: feed.dfy ===
/**
 * The feed service: one page of the articles of every source a user
 * follows, newest first, each paired with its source, plus the total
 * count across all pages.
 */
module Feed {
  import opened Wrappers
  import opened Seqs
  import opened Models
  import opened Store
  import opened Subscriptions
  import Retention

  datatype FeedArticle = FeedArticle(article: Article, source: Source)

  datatype FeedPage = FeedPage(articles: seq<FeedArticle>, total: nat)

  /** Store failures of the three queries: the listing, the count and the find. */
  datatype FeedFaults = FeedFaults(list: Option<string>, count: Option<string>, find: Option<string>)

  const NoFeedFaults := FeedFaults(None, None, None)

  /**
   * Reference definition: the user holds a subscription to the article's
   * source and that source still exists.
   */
  predicate Follows(db: Db, userId: string, a: Article)
  {
    exists s :: s in db.subscriptions && s.userId == userId && s.sourceId == a.sourceId
                && FindSource(db.sources, s.sourceId).Some?
  }

  /** `Follows` as a filter. */
  function Followed(db: Db, userId: string): Article -> bool
  {
    (a: Article) => Follows(db, userId, a)
  }

  /** The `sourceMap` of the listing: source id to source, later entries winning. */
  function SourceMap(listed: seq<SubscriptionWithSource>): (m: map<ObjectId, Source>)
    ensures forall p :: p in listed ==> p.source.id in m
    ensures forall id :: id in m ==> exists p :: p in listed && p.source.id == id && m[id] == p.source
    decreases |listed|
  {
    if |listed| == 0 then map[]
    else
      var last := listed[|listed| - 1];
      var init := listed[..|listed| - 1];
      assert listed == init + [last];
      SourceMap(init)[last.source.id := last.source]
  }

  /** The `source_id: {$in: sourceIDs}` filter. */
  function InSources(m: map<ObjectId, Source>): Article -> bool
  {
    (a: Article) => a.sourceId in m
  }

  /** A cursor's `skip` and `limit`: at most `limit` elements from position `skip` on. */
  function Window<T>(s: seq<T>, skip: nat, limit: nat): (r: seq<T>)
    ensures |r| == if skip < |s| then Min(limit, |s| - skip) else 0
    ensures forall i :: 0 <= i < |r| ==> r[i] == s[skip + i]
  {
    if skip >= |s| then [] else s[skip..skip + Min(limit, |s| - skip)]
  }

  /** Pairs every article with its source from the map. */
  function Pair(m: map<ObjectId, Source>, w: seq<Article>): (r: seq<FeedArticle>)
    requires forall a :: a in w ==> a.sourceId in m
    ensures |r| == |w|
    ensures forall i :: 0 <= i < |r| ==> r[i].article == w[i] && r[i].source == m[w[i].sourceId]
  {
    seq(|w|, i requires 0 <= i < |w| => FeedArticle(w[i], m[w[i].sourceId]))
  }

  /** The subscribed articles in cursor order. */
  function Ranked(db: Db, m: map<ObjectId, Source>): (r: seq<Article>)
    ensures NewestFirst(r)
    ensures |r| == |Filter(db.articles, InSources(m))|
    ensures forall a :: a in r <==> a in db.articles && a.sourceId in m
  {
    var matching := Filter(db.articles, InSources(m));
    var sorted := SortByRecency(matching);
    forall a
      ensures a in sorted <==> a in matching
    {
      assert a in sorted <==> a in multiset(sorted);
      assert a in matching <==> a in multiset(matching);
    }
    sorted
  }

  /**
   * The page of the ranking from position `(page - 1) * limit`, each
   * article paired with its source, with the count of the whole ranking.
   */
  function PageOf(db: Db, m: map<ObjectId, Source>, skip: nat, limit: nat): (r: FeedPage)
    ensures r.total == |Ranked(db, m)|
    ensures |r.articles| == if skip < r.total then Min(limit, r.total - skip) else 0
    ensures forall i :: 0 <= i < |r.articles| ==>
      && r.articles[i].article == Ranked(db, m)[skip + i]
      && r.articles[i].source == m[r.articles[i].article.sourceId]
  {
    var ranked := Ranked(db, m);
    var w := Window(ranked, skip, limit);
    assert forall a :: a in w ==> a in ranked;
    FeedPage(Pair(m, w), |ranked|)
  }

  /** A page is newest first. */
  lemma PageOfNewestFirst(db: Db, m: map<ObjectId, Source>, skip: nat, limit: nat)
    ensures var r := PageOf(db, m, skip, limit);
      forall i, j :: 0 <= i < j < |r.articles| ==> r.articles[i].article.discoveredAt >= r.articles[j].article.discoveredAt
  {
    var r := PageOf(db, m, skip, limit);
    var ranked := Ranked(db, m);
    forall i, j | 0 <= i < j < |r.articles|
      ensures r.articles[i].article.discoveredAt >= r.articles[j].article.discoveredAt
    {
      assert r.articles[i].article == ranked[skip + i];
      assert r.articles[j].article == ranked[skip + j];
    }
  }

  /**
   * The cursor's skip for a page: the `limit` articles of each earlier
   * page (`SkipIsProduct` gives the closed form `(page - 1) * limit`).
   */
  function Skip(page: int, limit: nat): (r: nat)
    requires page >= 1
    decreases page
  {
    if page == 1 then 0 else Skip(page - 1, limit) + limit
  }

  lemma {:induction false} SkipIsProduct(page: int, limit: nat)
    requires page >= 1
    ensures Skip(page, limit) == (page - 1) * limit
    decreases page
  {
    if page > 1 {
      SkipIsProduct(page - 1, limit);
      assert (page - 2) * limit + limit == (page - 1) * limit;
    }
  }

  /**
   * `GetUserFeed` for `page` and `limit` of at least one. The total is
   * taken before the page, both over the sources of the user's listed
   * subscriptions.
   */
  function GetUserFeed(db: Db, userId: string, page: int, limit: int, faults: FeedFaults): (r: Result<FeedPage>)
    requires page >= 1 && limit >= 1
    ensures faults.list.Some? ==>
      r == Err("failed to get subscriptions: " + ("failed to query subscriptions: " + faults.list.value))
    ensures faults.list.None? && ListSubscriptions(db, userId, None).value == [] ==> r == Ok(FeedPage([], 0))
    ensures faults.list.None? && ListSubscriptions(db, userId, None).value != [] ==>
      && (faults.count.Some? ==> r == Err("failed to count articles: " + faults.count.value))
      && (faults.count.None? && faults.find.Some? ==> r == Err("failed to fetch articles: " + faults.find.value))
      && (faults.count.None? && faults.find.None? ==>
            r == Ok(PageOf(db, SourceMap(ListSubscriptions(db, userId, None).value), Skip(page, limit), limit)))
  {
    var listed := ListSubscriptions(db, userId, faults.list);
    if listed.Err? then Err("failed to get subscriptions: " + listed.error)
    else if |listed.value| == 0 then Ok(FeedPage([], 0))
    else if faults.count.Some? then Err("failed to count articles: " + faults.count.value)
    else if faults.find.Some? then Err("failed to fetch articles: " + faults.find.value)
    else Ok(PageOf(db, SourceMap(listed.value), Skip(page, limit), limit))
  }

  /**
   * What a successful page promises: at most `limit` articles, newest
   * first, each a stored article of a source the user follows, paired with
   * that source as stored.
   */
  predicate SoundPage(db: Db, userId: string, limit: int, p: FeedPage)
  {
    && |p.articles| <= limit
    && (forall i, j :: 0 <= i < j < |p.articles| ==>
          p.articles[i].article.discoveredAt >= p.articles[j].article.discoveredAt)
    && (forall f :: f in p.articles ==>
          && f.article in db.articles
          && Follows(db, userId, f.article)
          && f.source in db.sources
          && f.source.id == f.article.sourceId)
  }

  /** A successful feed is the empty page, or the page of the listing's sources. */
  lemma FeedOk(db: Db, userId: string, page: int, limit: int, faults: FeedFaults)
    requires page >= 1 && limit >= 1
    requires GetUserFeed(db, userId, page, limit, faults).Ok?
    ensures ListSubscriptions(db, userId, None).value == [] ==>
      GetUserFeed(db, userId, page, limit, faults).value == FeedPage([], 0)
    ensures ListSubscriptions(db, userId, None).value != [] ==>
      GetUserFeed(db, userId, page, limit, faults).value
      == PageOf(db, SourceMap(ListSubscriptions(db, userId, None).value), Skip(page, limit), limit)
  {
  }

  lemma FeedPageSound(db: Db, userId: string, page: int, limit: int, faults: FeedFaults)
    requires page >= 1 && limit >= 1
    requires GetUserFeed(db, userId, page, limit, faults).Ok?
    ensures SoundPage(db, userId, limit, GetUserFeed(db, userId, page, limit, faults).value)
  {
    FeedOk(db, userId, page, limit, faults);
    if ListSubscriptions(db, userId, None).value != [] {
      PageOfSound(db, userId, ListSubscriptions(db, userId, None).value, Skip(page, limit), limit);
    }
  }

  /** Any page of the listing's sources is sound. */
  lemma PageOfSound(db: Db, userId: string, listed: seq<SubscriptionWithSource>, skip: nat, limit: nat)
    requires listed == ListSubscriptions(db, userId, None).value
    ensures SoundPage(db, userId, limit, PageOf(db, SourceMap(listed), skip, limit))
  {
    PageOfNewestFirst(db, SourceMap(listed), skip, limit);
    MapSourcesFollowed(db, userId, listed, SourceMap(listed));
    PageOfFromMap(db, SourceMap(listed), skip, limit);
  }

  /** A page holds stored articles of the map's sources, each paired with the map's source. */
  lemma PageOfFromMap(db: Db, m: map<ObjectId, Source>, skip: nat, limit: nat)
    ensures forall f :: f in PageOf(db, m, skip, limit).articles ==>
      f.article in db.articles && f.article.sourceId in m && f.source == m[f.article.sourceId]
  {
    var r := PageOf(db, m, skip, limit);
    var ranked := Ranked(db, m);
    forall f | f in r.articles
      ensures f.article in db.articles && f.article.sourceId in m && f.source == m[f.article.sourceId]
    {
      var i :| 0 <= i < |r.articles| && r.articles[i] == f;
      assert f.article == ranked[skip + i];
      assert f.article in ranked;
    }
  }

  /** Every source in the listing's map is stored and followed by the user. */
  lemma MapSourcesFollowed(db: Db, userId: string, listed: seq<SubscriptionWithSource>, m: map<ObjectId, Source>)
    requires listed == ListSubscriptions(db, userId, None).value
    requires m == SourceMap(listed)
    ensures forall id :: id in m ==> m[id] in db.sources && m[id].id == id
    ensures forall a: Article :: a.sourceId in m ==> Follows(db, userId, a)
  {
    forall a: Article | a.sourceId in m
      ensures Follows(db, userId, a)
    {
      var p :| p in listed && p.source.id == a.sourceId && m[a.sourceId] == p.source;
      assert FindSource(db.sources, p.subscription.sourceId).Some?;
    }
  }

  /** Conversely, the source of every followed article is in the listing's map. */
  lemma FollowedInMap(db: Db, userId: string, listed: seq<SubscriptionWithSource>, m: map<ObjectId, Source>)
    requires listed == ListSubscriptions(db, userId, None).value
    requires m == SourceMap(listed)
    ensures forall a: Article :: Follows(db, userId, a) ==> a.sourceId in m
  {
    forall a: Article | Follows(db, userId, a)
      ensures a.sourceId in m
    {
      var s :| s in db.subscriptions && s.userId == userId && s.sourceId == a.sourceId
               && FindSource(db.sources, s.sourceId).Some?;
      var p := SubscriptionWithSource(s, FindSource(db.sources, s.sourceId).value);
      assert p in listed;
    }
  }

  /**
   * The total counts exactly the followed articles: those of a source the
   * user subscribes to that still exists.
   */
  lemma FeedTotalCountsFollowed(db: Db, userId: string, page: int, limit: int, faults: FeedFaults)
    requires page >= 1 && limit >= 1
    requires GetUserFeed(db, userId, page, limit, faults).Ok?
    ensures GetUserFeed(db, userId, page, limit, faults).value.total == |Filter(db.articles, Followed(db, userId))|
  {
    var listed := ListSubscriptions(db, userId, None).value;
    var m := SourceMap(listed);
    MapSourcesFollowed(db, userId, listed, m);
    FollowedInMap(db, userId, listed, m);
    if |listed| == 0 {
      assert forall a :: a in db.articles ==> !Followed(db, userId)(a);
      FilterDropsAll(db.articles, Followed(db, userId));
    } else {
      FilterAgree(db.articles, InSources(m), Followed(db, userId));
    }
  }

  /** A page holds `limit` articles until the total runs out, and nothing past it. */
  lemma FeedPageSize(db: Db, userId: string, page: int, limit: int, faults: FeedFaults)
    requires page >= 1 && limit >= 1
    requires GetUserFeed(db, userId, page, limit, faults).Ok?
    ensures var r := GetUserFeed(db, userId, page, limit, faults).value;
      var skip := (page - 1) * limit;
      |r.articles| == if skip < r.total then Min(limit, r.total - skip) else 0
  {
    SkipIsProduct(page, limit);
  }

  /** Later pages start at least a page further on. */
  lemma {:induction false} PagesApart(p: int, q: int, limit: nat)
    requires 1 <= p < q
    ensures Skip(p, limit) + limit <= Skip(q, limit)
    decreases q
  {
    if q > p + 1 {
      PagesApart(p, q - 1, limit);
    }
  }

  /** Every position of the ranking falls on exactly one page's window. */
  lemma {:induction false} PageFor(k: nat, limit: nat) returns (page: int)
    requires limit >= 1
    ensures page >= 1 && Skip(page, limit) <= k < Skip(page, limit) + limit
    decreases k
  {
    if k < limit {
      page := 1;
    } else {
      var before := PageFor(k - limit, limit);
      page := before + 1;
    }
  }

  /** Every article of the ranking is on some page. */
  lemma RankedOnSomePage(db: Db, m: map<ObjectId, Source>, limit: nat, a: Article) returns (page: int)
    requires limit >= 1 && a in Ranked(db, m)
    ensures page >= 1 && exists f :: f in PageOf(db, m, Skip(page, limit), limit).articles && f.article == a
  {
    var ranked := Ranked(db, m);
    var k :| 0 <= k < |ranked| && ranked[k] == a;
    page := PageFor(k, limit);
    var skip := Skip(page, limit);
    var r := PageOf(db, m, skip, limit);
    var i := k - skip;
    assert 0 <= i < limit && skip < r.total;
    assert i < |r.articles| by {
      assert i < r.total - skip;
    }
    assert r.articles[i].article == a;
    assert r.articles[i] in r.articles;
  }

  /** Paging through the feed reaches every followed article. */
  lemma FeedCoversFollowed(db: Db, userId: string, limit: int, a: Article)
    requires limit >= 1
    requires a in db.articles && Follows(db, userId, a)
    ensures exists page :: (page >= 1 && GetUserFeed(db, userId, page, limit, NoFeedFaults).Ok? &&
      exists f :: f in GetUserFeed(db, userId, page, limit, NoFeedFaults).value.articles && f.article == a)
  {
    FollowedIsListed(db, userId, a);
    var page := RankedOnSomePage(db, SourceMap(ListSubscriptions(db, userId, None).value), limit, a);
    FeedWithoutFaults(db, userId, page, limit);
    OnPageInFeed(db, userId, page, limit, a);
  }

  /** A followed article's source is among the listing's sources. */
  lemma FollowedIsListed(db: Db, userId: string, a: Article)
    requires a in db.articles && Follows(db, userId, a)
    ensures ListSubscriptions(db, userId, None).value != []
    ensures a in Ranked(db, SourceMap(ListSubscriptions(db, userId, None).value))
  {
    FollowedSourceInMap(db, userId, a);
    NonEmptyMapListed(ListSubscriptions(db, userId, None).value, a.sourceId);
  }

  lemma FollowedSourceInMap(db: Db, userId: string, a: Article)
    requires Follows(db, userId, a)
    ensures a.sourceId in SourceMap(ListSubscriptions(db, userId, None).value)
  {
    var s :| s in db.subscriptions && s.userId == userId && s.sourceId == a.sourceId
             && FindSource(db.sources, s.sourceId).Some?;
    assert SubscriptionWithSource(s, FindSource(db.sources, s.sourceId).value)
        in ListSubscriptions(db, userId, None).value;
  }

  /** A map built from an empty listing is empty. */
  lemma NonEmptyMapListed(listed: seq<SubscriptionWithSource>, id: ObjectId)
    requires id in SourceMap(listed)
    ensures listed != []
  {
  }

  /** An article on the page the feed serves is in the feed's answer for that page. */
  lemma OnPageInFeed(db: Db, userId: string, page: int, limit: int, a: Article)
    requires page >= 1 && limit >= 1
    requires ListSubscriptions(db, userId, None).value != []
    requires GetUserFeed(db, userId, page, limit, NoFeedFaults)
          == Ok(PageOf(db, SourceMap(ListSubscriptions(db, userId, None).value), Skip(page, limit), limit))
    requires exists f :: f in PageOf(db, SourceMap(ListSubscriptions(db, userId, None).value), Skip(page, limit),
                                     limit).articles && f.article == a
    ensures GetUserFeed(db, userId, page, limit, NoFeedFaults).Ok?
    ensures exists f :: f in GetUserFeed(db, userId, page, limit, NoFeedFaults).value.articles && f.article == a
  {
    var f :| f in PageOf(db, SourceMap(ListSubscriptions(db, userId, None).value), Skip(page, limit), limit).articles
             && f.article == a;
    assert f in GetUserFeed(db, userId, page, limit, NoFeedFaults).value.articles;
  }

  /** With no store failures and some subscriptions, the feed is the page of the listing's sources. */
  lemma FeedWithoutFaults(db: Db, userId: string, page: int, limit: int)
    requires page >= 1 && limit >= 1
    requires ListSubscriptions(db, userId, None).value != []
    ensures GetUserFeed(db, userId, page, limit, NoFeedFaults)
         == Ok(PageOf(db, SourceMap(ListSubscriptions(db, userId, None).value), Skip(page, limit), limit))
  {
  }

  /** Every article of an earlier window is at least as new as every article of a later one. */
  lemma WindowsOrdered(db: Db, m: map<ObjectId, Source>, sp: nat, sq: nat, limit: nat, x: FeedArticle, y: FeedArticle)
    requires sp + limit <= sq
    requires x in PageOf(db, m, sp, limit).articles && y in PageOf(db, m, sq, limit).articles
    ensures x.article.discoveredAt >= y.article.discoveredAt
  {
    var ranked := Ranked(db, m);
    var rp := PageOf(db, m, sp, limit).articles;
    var rq := PageOf(db, m, sq, limit).articles;
    var i :| 0 <= i < |rp| && rp[i] == x;
    var j :| 0 <= j < |rq| && rq[j] == y;
    assert x.article == ranked[sp + i];
    assert y.article == ranked[sq + j];
  }

  /** Every article of an earlier page is at least as new as every article of a later one. */
  lemma LaterPagesOlder(db: Db, userId: string, p: int, q: int, limit: int, x: FeedArticle, y: FeedArticle)
    requires 1 <= p < q && limit >= 1
    requires GetUserFeed(db, userId, p, limit, NoFeedFaults).Ok?
    requires x in GetUserFeed(db, userId, p, limit, NoFeedFaults).value.articles
    requires y in GetUserFeed(db, userId, q, limit, NoFeedFaults).value.articles
    ensures x.article.discoveredAt >= y.article.discoveredAt
  {
    var m := SourceMap(ListSubscriptions(db, userId, None).value);
    PagesApart(p, q, limit);
    WindowsOrdered(db, m, Skip(p, limit), Skip(q, limit), limit, x, y);
  }

  // ---------------------------------------------------------------- consecutive pages

  /** The ranking keeps the unique article ids of the store. */
  lemma RankedDistinctIds(db: Db, m: map<ObjectId, Source>)
    requires Pairwise(db.articles, DistinctArticleIds)
    ensures Pairwise(Ranked(db, m), DistinctArticleIds)
  {
    FilterPairwise(db.articles, InSources(m), DistinctArticleIds);
    Retention.SortKeepsDistinctIds(Filter(db.articles, InSources(m)));
  }

  /** A window shorter than `limit` reaches the end of the ranking, so the next one is empty. */
  lemma ShortWindowIsLast(db: Db, m: map<ObjectId, Source>, skip: nat, next: nat, limit: nat)
    requires next == skip + limit
    ensures |PageOf(db, m, skip, limit).articles| < limit ==> PageOf(db, m, next, limit).articles == []
  {
  }

  /** With unique article ids, no article is on a window and on a later one that does not overlap it. */
  lemma ConsecutiveWindowsDisjoint(db: Db, m: map<ObjectId, Source>, skip: nat, next: nat, limit: nat,
                                   x: FeedArticle, y: FeedArticle)
    requires skip + limit <= next
    requires Pairwise(db.articles, DistinctArticleIds)
    requires x in PageOf(db, m, skip, limit).articles && y in PageOf(db, m, next, limit).articles
    ensures x.article.id != y.article.id
  {
    var ranked := Ranked(db, m);
    var rp := PageOf(db, m, skip, limit).articles;
    var rq := PageOf(db, m, next, limit).articles;
    var i :| 0 <= i < |rp| && rp[i] == x;
    var j :| 0 <= j < |rq| && rq[j] == y;
    RankedDistinctIds(db, m);
    assert x.article == ranked[skip + i];
    assert y.article == ranked[next + j];
    assert DistinctArticleIds(ranked[skip + i], ranked[next + j]);
  }

  /** A user's page, without store failures, is the window of the ranking of the followed sources. */
  lemma FeedPageIsWindow(db: Db, userId: string, page: int, limit: int)
    requires page >= 1 && limit >= 1
    ensures GetUserFeed(db, userId, page, limit, NoFeedFaults).Ok?
    ensures GetUserFeed(db, userId, page, limit, NoFeedFaults).value.articles
         == PageOf(db, SourceMap(ListSubscriptions(db, userId, None).value), Skip(page, limit), limit).articles
  {
    var listed := ListSubscriptions(db, userId, None).value;
    if listed == [] {
      var m := SourceMap(listed);
      assert forall a :: a !in Ranked(db, m);
    } else {
      FeedWithoutFaults(db, userId, page, limit);
    }
  }

  /** Each page skips `limit` more articles than the one before. */
  lemma SkipStep(page: int, limit: nat)
    requires page >= 1
    ensures Skip(page + 1, limit) == Skip(page, limit) + limit
  {
  }

  /** A page shorter than `limit` is the last one: the page after it is empty. */
  lemma ShortPageIsLast(db: Db, userId: string, page: int, limit: int)
    requires page >= 1 && limit >= 1
    ensures GetUserFeed(db, userId, page, limit, NoFeedFaults).Ok?
    ensures GetUserFeed(db, userId, page + 1, limit, NoFeedFaults).Ok?
    ensures |GetUserFeed(db, userId, page, limit, NoFeedFaults).value.articles| < limit ==>
      GetUserFeed(db, userId, page + 1, limit, NoFeedFaults).value.articles == []
  {
    var m := SourceMap(ListSubscriptions(db, userId, None).value);
    SkipStep(page, limit);
    FeedPageIsWindow(db, userId, page, limit);
    FeedPageIsWindow(db, userId, page + 1, limit);
    ShortWindowIsLast(db, m, Skip(page, limit), Skip(page + 1, limit), limit);
  }

  /**
   * Without store failures, page `page` holds the ranking of the followed
   * articles from position `Skip(page, limit)` on; with `SkipStep`, page
   * `page + 1` therefore continues right where a full page `page` stops.
   */
  lemma FeedPageEntries(db: Db, userId: string, page: int, limit: int)
    requires page >= 1 && limit >= 1
    ensures GetUserFeed(db, userId, page, limit, NoFeedFaults).Ok?
    ensures var ranked := Ranked(db, SourceMap(ListSubscriptions(db, userId, None).value));
      var p := GetUserFeed(db, userId, page, limit, NoFeedFaults).value.articles;
      forall i :: 0 <= i < |p| ==> Skip(page, limit) + i < |ranked| && p[i].article == ranked[Skip(page, limit) + i]
  {
    FeedPageIsWindow(db, userId, page, limit);
  }

  /** Under the store's unique article ids, no article is on both of two consecutive pages. */
  lemma ConsecutivePagesDisjoint(db: Db, userId: string, page: int, limit: int, x: FeedArticle, y: FeedArticle)
    requires page >= 1 && limit >= 1
    requires Pairwise(db.articles, DistinctArticleIds)
    requires GetUserFeed(db, userId, page, limit, NoFeedFaults).Ok?
    requires x in GetUserFeed(db, userId, page, limit, NoFeedFaults).value.articles
    requires y in GetUserFeed(db, userId, page + 1, limit, NoFeedFaults).value.articles
    ensures x.article.id != y.article.id
  {
    var m := SourceMap(ListSubscriptions(db, userId, None).value);
    SkipStep(page, limit);
    FeedPageIsWindow(db, userId, page, limit);
    FeedPageIsWindow(db, userId, page + 1, limit);
    ConsecutiveWindowsDisjoint(db, m, Skip(page, limit), Skip(page + 1, limit), limit, x, y);
  }
}

=== FILE: feed_controller.dfy ===
/**
 * The `GET /api/feed` handler: authentication, the `page` and `limit`
 * query parameters with their defaults and clamping, and the response
 * with the page count.
 */
module FeedController {
  import opened Wrappers
  import opened Seqs
  import opened Store
  import opened Subscriptions
  import opened Feed

  const StatusOK := 200
  const StatusUnauthorized := 401
  const StatusInternalServerError := 500

  const NotAuthenticated := "user not authenticated"

  const DefaultPage := 1
  const DefaultLimit := 20
  const MaxLimit := 100

  /** The range of Go's `int` on the 64-bit targets the service is built for. */
  const MinInt64 := -0x8000_0000_0000_0000
  const MaxInt64 := 0x7FFF_FFFF_FFFF_FFFF

  /**
   * A query parameter as `strconv.Atoi` sees it: absent (the default text
   * is parsed instead), text that is not a decimal integer, or a decimal
   * integer of any size.
   */
  datatype QueryParam = Missing | Malformed | Number(n: int)

  /**
   * The parsed value, with parse errors ignored: on a syntax error `Atoi`
   * yields zero, and on a number outside `int`'s range it yields the
   * nearest end of that range.
   */
  function ParamValue(q: QueryParam, default: int): (r: int)
    ensures q.Missing? ==> r == default
    ensures q.Malformed? ==> r == 0
    ensures q.Number? && MinInt64 <= q.n <= MaxInt64 ==> r == q.n
    ensures q.Number? && q.n > MaxInt64 ==> r == MaxInt64
    ensures q.Number? && q.n < MinInt64 ==> r == MinInt64
  {
    match q
    case Missing => default
    case Malformed => 0
    case Number(n) => if n > MaxInt64 then MaxInt64 else if n < MinInt64 then MinInt64 else n
  }

  /** A page below one becomes one; any other page is kept. */
  function ClampPage(p: int): (r: int)
    ensures r >= 1
    ensures p >= 1 ==> r == p
    ensures p < 1 ==> r == DefaultPage
  {
    if p < 1 then DefaultPage else p
  }

  /** A limit outside one to a hundred becomes the default of twenty. */
  function ClampLimit(l: int): (r: int)
    ensures 1 <= r <= MaxLimit
    ensures 1 <= l <= MaxLimit ==> r == l
    ensures !(1 <= l <= MaxLimit) ==> r == DefaultLimit
  {
    if l < 1 || l > MaxLimit then DefaultLimit else l
  }

  /** `(total + limit - 1) / limit`: the number of pages of `limit` needed for `total` articles. */
  function TotalPages(total: nat, limit: int): (r: nat)
    requires limit >= 1
  {
    (total + limit - 1) / limit
  }

  /** The page count is the ceiling of `total / limit`: enough pages, and no spare one. */
  lemma TotalPagesIsCeiling(total: nat, limit: int)
    requires limit >= 1
    ensures TotalPages(total, limit) * limit >= total
    ensures (TotalPages(total, limit) - 1) * limit < total
    ensures TotalPages(total, limit) == 0 <==> total == 0
  {
    var r := TotalPages(total, limit);
    var rem := (total + limit - 1) % limit;
    assert total + limit - 1 == r * limit + rem;
    assert 0 <= rem < limit;
    assert (r - 1) * limit == r * limit - limit;
  }

  datatype Body =
    | ErrorBody(error: string)
    | FeedBody(page: int, limit: int, total: nat, totalPages: nat, articles: seq<FeedArticle>)

  datatype Response = Response(status: int, body: Body)

  /**
   * `GetFeed`. `user` is the id the authentication middleware stored, if
   * any; the feed's store failures are `faults`.
   */
  function GetFeed(db: Db, user: Option<string>, pageParam: QueryParam, limitParam: QueryParam,
                   faults: FeedFaults): (r: Response)
    ensures r.status == StatusUnauthorized <==> user.None?
    ensures user.None? ==> r.body == ErrorBody(NotAuthenticated)
    ensures r.status == StatusOK || r.status == StatusUnauthorized || r.status == StatusInternalServerError
    ensures r.status == StatusOK <==> r.body.FeedBody?
    ensures r.status == StatusOK ==>
      && r.body.page == ClampPage(ParamValue(pageParam, DefaultPage))
      && r.body.limit == ClampLimit(ParamValue(limitParam, DefaultLimit))
      && |r.body.articles| <= r.body.limit
    ensures r.status == StatusOK ==>
      1 <= r.body.limit && r.body.totalPages == TotalPages(r.body.total, r.body.limit)
    ensures user.Some? ==>
      var feed := GetUserFeed(db, user.value, ClampPage(ParamValue(pageParam, DefaultPage)),
                              ClampLimit(ParamValue(limitParam, DefaultLimit)), faults);
      && (feed.Err? <==> r.status == StatusInternalServerError)
      && (feed.Err? ==> r.body == ErrorBody(feed.error))
      && (feed.Ok? ==> r.body.total == feed.value.total && r.body.articles == feed.value.articles)
  {
    match user
    case None => Response(StatusUnauthorized, ErrorBody(NotAuthenticated))
    case Some(userId) =>
      var page := ClampPage(ParamValue(pageParam, DefaultPage));
      var limit := ClampLimit(ParamValue(limitParam, DefaultLimit));
      match GetUserFeed(db, userId, page, limit, faults)
      case Err(message) => Response(StatusInternalServerError, ErrorBody(message))
      case Ok(feed) =>
        FeedPageSound(db, userId, page, limit, faults);
        Response(StatusOK, FeedBody(page, limit, feed.total, TotalPages(feed.total, limit), feed.articles))
  }

  /** Without parameters, or with unparseable ones, the first page of twenty is served. */
  lemma DefaultParameters(db: Db, userId: string, pageParam: QueryParam, limitParam: QueryParam, faults: FeedFaults)
    requires pageParam == Missing || pageParam == Malformed
    requires limitParam == Missing || limitParam == Malformed
    requires GetFeed(db, Some(userId), pageParam, limitParam, faults).status == StatusOK
    ensures var b := GetFeed(db, Some(userId), pageParam, limitParam, faults).body;
      b.page == 1 && b.limit == 20
  {
  }

  /** `a <= b` scales by a non-negative factor. */
  lemma MulMonotone(a: int, b: int, c: int)
    requires a <= b && c >= 0
    ensures a * c <= b * c
  {
    assert b * c - a * c == (b - a) * c;
  }

  /** Page `page` starts before the last article exactly when it is one of the `TotalPages` pages. */
  lemma StartsWithinTotal(page: int, limit: int, total: nat)
    requires page >= 1 && limit >= 1
    ensures (page - 1) * limit < total <==> page <= TotalPages(total, limit)
  {
    var tp := TotalPages(total, limit);
    TotalPagesIsCeiling(total, limit);
    if page <= tp {
      MulMonotone(page - 1, tp - 1, limit);
    } else {
      MulMonotone(tp, page - 1, limit);
    }
  }

  /**
   * A successful response's page has articles exactly when it is one of
   * the `total_pages` pages.
   */
  lemma PageHasArticlesIffWithinTotalPages(db: Db, userId: string, pageParam: QueryParam,
                                           limitParam: QueryParam, faults: FeedFaults)
    requires GetFeed(db, Some(userId), pageParam, limitParam, faults).status == StatusOK
    ensures var b := GetFeed(db, Some(userId), pageParam, limitParam, faults).body;
      |b.articles| > 0 <==> b.page <= b.totalPages
  {
    var page := ClampPage(ParamValue(pageParam, DefaultPage));
    var limit := ClampLimit(ParamValue(limitParam, DefaultLimit));
    var feed := GetUserFeed(db, userId, page, limit, faults).value;
    FeedPageSize(db, userId, page, limit, faults);
    StartsWithinTotal(page, limit, feed.total);
  }
}

=== FILE: hash_helper.dfy ===
/**
 * The content hasher (helpers/hashHelper.go): `title + " " + content` is
 * trimmed, lower-cased, split into fields and re-joined with single spaces;
 * the digest of that text, hex-encoded, identifies an article's content
 * across all sources.
 */
module HashHelper {
  import opened Wrappers
  import opened Text

  type byte = x: int | 0 <= x < 256

  /** The 32 bytes of a SHA-256 digest. */
  type Digest = d: seq<byte> | |d| == 32 witness seq(32, _ => 0)

  /**
   * SHA-256 over the bytes of a text. It is a parameter of the model: nothing
   * is assumed about it beyond being a function, in particular not that it is
   * free of collisions.
   */
  type Sha256 = string -> Digest

  // ---------------------------------------------------------------- normalisation

  /** Whether a text is in the normal form the hasher produces. */
  predicate IsNormalized(s: string)
  {
    SingleSpaced(s) && NoUpper(s)
  }

  /** Trim, lower-case, then collapse white space to single spaces. */
  function NormalizeText(s: string): (r: string)
    ensures IsNormalized(r)
  {
    var lowered := ToLower(TrimSpace(s));
    var words := Fields(lowered);
    FieldsNoUpper(lowered);
    JoinIsSingleSpaced(words);
    JoinNoUpper(words);
    JoinWords(words)
  }

  /** The text `GenerateContentHash` feeds to SHA-256. */
  function Normalize(title: string, content: string): (r: string)
    ensures IsNormalized(r)
  {
    NormalizeText(title + " " + content)
  }

  lemma NoUpperParts(a: string, b: string)
    requires NoUpper(a + b)
    ensures NoUpper(a) && NoUpper(b)
  {
    assert forall i :: 0 <= i < |a| ==> a[i] == (a + b)[i];
    assert forall i :: 0 <= i < |b| ==> b[i] == (a + b)[|a| + i];
  }

  /** The fields of a text without upper-case letters have none either. */
  lemma {:induction false} FieldsNoUpper(s: string)
    requires NoUpper(s)
    ensures forall k :: 0 <= k < |Fields(s)| ==> NoUpper(Fields(s)[k])
    decreases |s|
  {
    var t := TrimLeft(s);
    TrimLeftSplit(s);
    NoUpperParts(s[..|s| - |t|], t);
    if |t| > 0 {
      var w := TakeWord(t);
      TakeWordSplit(t);
      NoUpperParts(w, t[|w|..]);
      FieldsNoUpper(t[|w|..]);
      assert Fields(s) == [w] + Fields(t[|w|..]);
    }
  }

  /** A normalised text is left as it is by normalisation. */
  lemma NormalizeFixesNormalized(s: string)
    requires IsNormalized(s)
    ensures NormalizeText(s) == s
  {
    TrimSpaceOfTrimmed(s);
    ToLowerOfLower(s);
    JoinOfFields(s);
  }

  /** Normalisation is idempotent. */
  lemma NormalizeIdempotent(s: string)
    ensures NormalizeText(NormalizeText(s)) == NormalizeText(s)
  {
    NormalizeFixesNormalized(NormalizeText(s));
  }

  lemma ToLowerKeepsAllSpace(s: string)
    requires AllSpace(s)
    ensures AllSpace(ToLower(s))
  {
  }

  /** Trimming before splitting into fields makes no difference to the words. */
  lemma NormalizedWords(s: string)
    ensures Fields(ToLower(TrimSpace(s))) == Fields(ToLower(s))
  {
    var front, back := TrimSpacePadding(s);
    ToLowerConcat(front + TrimSpace(s), back);
    ToLowerConcat(front, TrimSpace(s));
    ToLowerKeepsAllSpace(front);
    ToLowerKeepsAllSpace(back);
    FieldsOfPadded(ToLower(front), ToLower(TrimSpace(s)), ToLower(back));
  }

  /**
   * Two texts normalise to the same string exactly when their lower-cased
   * words agree: equality up to letter case and white space.
   */
  lemma NormalizeTextEqualIff(a: string, b: string)
    ensures NormalizeText(a) == NormalizeText(b) <==> Fields(ToLower(a)) == Fields(ToLower(b))
  {
    NormalizedWords(a);
    NormalizedWords(b);
    var wa := Fields(ToLower(TrimSpace(a)));
    var wb := Fields(ToLower(TrimSpace(b)));
    if NormalizeText(a) == NormalizeText(b) {
      FieldsOfJoin(wa);
      FieldsOfJoin(wb);
    }
  }

  // ---------------------------------------------------------------- hex encoding

  const HexDigits := "0123456789abcdef"

  predicate IsLowerHex(s: string)
  {
    forall i :: 0 <= i < |s| ==> s[i] in HexDigits
  }

  /** `hex.EncodeToString`: two lower-case hex digits per byte, high nibble first. */
  function HexEncode(b: seq<byte>): (r: string)
    ensures |r| == 2 * |b|
    ensures IsLowerHex(r)
  {
    if |b| == 0 then ""
    else [HexDigits[b[0] / 16], HexDigits[b[0] % 16]] + HexEncode(b[1..])
  }

  function HexValue(c: char): (r: Option<int>)
    ensures r.Some? ==> 0 <= r.value < 16
  {
    if '0' <= c <= '9' then Some(c as int - '0' as int)
    else if 'a' <= c <= 'f' then Some(c as int - 'a' as int + 10)
    else None
  }

  /** `hex.DecodeString` restricted to lower-case digits: the inverse of `HexEncode`. */
  function HexDecode(s: string): (r: Option<seq<byte>>)
    ensures r.Some? ==> 2 * |r.value| == |s|
    decreases |s|
  {
    if |s| == 0 then Some([])
    else if |s| == 1 then None
    else
      var hi, lo, rest := HexValue(s[0]), HexValue(s[1]), HexDecode(s[2..]);
      if hi.Some? && lo.Some? && rest.Some? then Some([(hi.value * 16 + lo.value) as byte] + rest.value)
      else None
  }

  lemma HexValueOfDigit(n: int)
    requires 0 <= n < 16
    ensures HexValue(HexDigits[n]) == Some(n)
  {
  }

  /** Decoding an encoding gives the bytes back, so the encoding loses nothing. */
  lemma {:induction false} HexRoundTrip(b: seq<byte>)
    ensures HexDecode(HexEncode(b)) == Some(b)
    decreases |b|
  {
    if |b| > 0 {
      HexEncodeFirstByte(b);
      HexRoundTrip(b[1..]);
      HexDecodeFirstByte(HexEncode(b), b[0]);
      assert b == [b[0]] + b[1..];
    }
  }

  lemma HexEncodeFirstByte(b: seq<byte>)
    requires |b| > 0
    ensures HexEncode(b)[0] == HexDigits[b[0] / 16] && HexEncode(b)[1] == HexDigits[b[0] % 16]
    ensures HexEncode(b)[2..] == HexEncode(b[1..])
  {
    var pair := [HexDigits[b[0] / 16], HexDigits[b[0] % 16]];
    assert HexEncode(b) == pair + HexEncode(b[1..]);
    assert (pair + HexEncode(b[1..]))[2..] == HexEncode(b[1..]);
  }

  /** A text starting with the two digits of `x` decodes to `x` before the rest. */
  lemma HexDecodeFirstByte(s: string, x: byte)
    requires |s| >= 2 && s[0] == HexDigits[x / 16] && s[1] == HexDigits[x % 16]
    requires HexDecode(s[2..]).Some?
    ensures HexDecode(s) == Some([x] + HexDecode(s[2..]).value)
  {
    HexValueOfDigit(x as int / 16);
    HexValueOfDigit(x as int % 16);
    assert (x as int / 16) * 16 + x as int % 16 == x as int;
  }

  /** Distinct digests have distinct hex encodings. */
  lemma HexEncodeInjective(a: seq<byte>, b: seq<byte>)
    requires HexEncode(a) == HexEncode(b)
    ensures a == b
  {
    HexRoundTrip(a);
    HexRoundTrip(b);
  }

  // ---------------------------------------------------------------- the hash

  /** `GenerateContentHash`: hex of SHA-256 of the normalised text. */
  function GenerateContentHash(sha: Sha256, title: string, content: string): (r: string)
    ensures |r| == 64
    ensures IsLowerHex(r)
  {
    HexEncode(sha(Normalize(title, content)))
  }

  /**
   * The hash sees its inputs only through the normalised text: inputs whose
   * lower-cased words agree get the same hash, whatever SHA-256 is.
   */
  lemma SameWordsSameHash(sha: Sha256, t1: string, c1: string, t2: string, c2: string)
    requires Fields(ToLower(t1 + " " + c1)) == Fields(ToLower(t2 + " " + c2))
    ensures GenerateContentHash(sha, t1, c1) == GenerateContentHash(sha, t2, c2)
  {
    NormalizeTextEqualIff(t1 + " " + c1, t2 + " " + c2);
  }

  /**
   * The contrapositive of `SameWordsSameHash`: different hashes come only
   * from different lower-cased word lists. The converse would need a
   * collision-free SHA-256, which is not assumed.
   */
  lemma DifferentHashDifferentText(sha: Sha256, t1: string, c1: string, t2: string, c2: string)
    requires GenerateContentHash(sha, t1, c1) != GenerateContentHash(sha, t2, c2)
    ensures Fields(ToLower(t1 + " " + c1)) != Fields(ToLower(t2 + " " + c2))
  {
    NormalizeTextEqualIff(t1 + " " + c1, t2 + " " + c2);
  }

  // ---------------------------------------------------------------- examples

  lemma TwoWordFields(w1: string, w2: string, pad: string)
    requires IsWord(w1) && IsWord(w2) && AllSpace(pad)
    ensures Fields(w1 + (" " + (pad + w2))) == [w1, w2]
  {
    FieldsOfWordThenSpace(w1, pad + w2);
    FieldsOfLeftPadded(pad, w2);
    FieldsOfWord(w2);
  }

  /** ("Title", "Body") and (" title ", "BODY") get the same hash. */
  lemma CaseAndSpaceVariants(sha: Sha256)
    ensures GenerateContentHash(sha, "Title", "Body") == GenerateContentHash(sha, " title ", "BODY")
  {
    var title, body, pad := "title", "body", " ";
    assert IsWord(title) && IsWord(body) && AllSpace(pad);
    LowerOfVariants();
    TwoWordFields(title, body, []);
    TwoWordFields(title, body, pad);
    FieldsOfLeftPadded(pad, title + (" " + (pad + body)));
    SameWordsSameHash(sha, "Title", "Body", " title ", "BODY");
  }

  lemma LowerOfVariants()
    ensures ToLower("Title" + " " + "Body") == "title" + (" " + ([] + "body"))
    ensures ToLower(" title " + " " + "BODY") == " " + ("title" + (" " + (" " + "body")))
  {
    assert ToLower("Title" + " " + "Body") == "title" + (" " + ([] + "body"));
  }

  /** The split between title and content is lost: ("a b", "") and ("a", "b") collide. */
  lemma TitleContentBoundaryLost(sha: Sha256)
    ensures GenerateContentHash(sha, "a b", "") == GenerateContentHash(sha, "a", "b")
  {
    var a := "a b" + " " + "";
    var b := "a" + " " + "b";
    assert ToLower(a) == ("a" + (" " + "b")) + " ";
    assert ToLower(b) == "a" + (" " + "b");
    FieldsOfRightPadded("a" + (" " + "b"), " ");
    SameWordsSameHash(sha, "a b", "", "a", "b");
  }

  /** Empty title and empty content normalise to the empty text. */
  lemma EmptyNormalizesToEmpty()
    ensures Normalize("", "") == ""
  {
    assert TrimLeft(" ") == "";
  }
}

=== FILE: models.dfy ===
/**
 * The persisted records (models/articleModels.go, models/sourceModels.go,
 * models/subscriptionModels.go) and, as predicates, the `validate` tags on
 * their fields.
 */
module Models {
  import opened Wrappers

  /** A MongoDB ObjectID, abstracted to a number; 0 stands for the nil (all-zero) id. */
  type ObjectId = nat

  const NilId: ObjectId := 0

  /** A wall-clock instant; only its order matters to the model. */
  type Time = int

  /** `SourceStatus`: the three values the source assigns to the `status` field. */
  datatype SourceStatus = Active | Error | Unreachable
  {
    /** The string stored in the document. */
    function Text(): string
    {
      match this
      case Active => "active"
      case Error => "error"
      case Unreachable => "unreachable"
    }
  }

  datatype Source = Source(
    id: ObjectId,
    url: string,
    name: string,
    status: SourceStatus,
    lastCrawledAt: Option<Time>,
    lastAttemptAt: Option<Time>,
    lastError: string,
    rssUrl: string,
    sitemapUrl: string,
    etag: string,
    lastModified: string,
    totalArticles: int,
    successfulCrawls: int,
    failedCrawls: int,
    createdAt: Time,
    updatedAt: Time)

  datatype Article = Article(
    id: ObjectId,
    sourceId: ObjectId,
    title: string,
    url: string,
    contentHash: string,
    summary: Option<string>,
    publishedAt: Option<Time>,
    discoveredAt: Time,
    author: Option<string>)

  datatype Subscription = Subscription(
    id: ObjectId,
    userId: string,
    sourceId: ObjectId,
    subscribedAt: Time)

  // ---------------------------------------------------------------- Article tags

  /** `Source_id`: `required`, so not the nil id. */
  predicate ArticleSourceIdTag(a: Article)
  {
    a.sourceId != NilId
  }

  /** `Title`: `required,min=1,max=500`. */
  predicate ArticleTitleTag(a: Article)
  {
    1 <= |a.title| <= 500
  }

  /** `URL`: `required,url,max=2000` (the URL syntax check is not modelled). */
  predicate ArticleUrlTag(a: Article)
  {
    1 <= |a.url| <= 2000
  }

  /** `Content_hash`: `required,len=64`. */
  predicate ArticleHashTag(a: Article)
  {
    |a.contentHash| == 64
  }

  /** `Summary`: `omitempty,max=1000`; a nil pointer is not checked. */
  predicate ArticleSummaryTag(a: Article)
  {
    a.summary.Some? ==> |a.summary.value| <= 1000
  }

  /** `Author`: `omitempty,max=200`. */
  predicate ArticleAuthorTag(a: Article)
  {
    a.author.Some? ==> |a.author.value| <= 200
  }

  /** Every `validate` tag of `Article`. */
  predicate ArticleValid(a: Article)
  {
    && ArticleSourceIdTag(a)
    && ArticleTitleTag(a)
    && ArticleUrlTag(a)
    && ArticleHashTag(a)
    && ArticleSummaryTag(a)
    && ArticleAuthorTag(a)
  }

  // ---------------------------------------------------------------- Source tags

  /** `URL`: `required,url` (the URL syntax check is not modelled). */
  predicate SourceUrlTag(s: Source)
  {
    |s.url| > 0
  }

  /** `Name`: `required,min=1,max=200`. */
  predicate SourceNameTag(s: Source)
  {
    1 <= |s.name| <= 200
  }

  /** Every `validate` tag of `Source`; the status enum is enforced by its type. */
  predicate SourceValid(s: Source)
  {
    SourceUrlTag(s) && SourceNameTag(s)
  }
}

=== FILE: retention.dfy ===
/**
 * `cleanupOldArticles` (services/crawlerService.go): once a source has more
 * than 50 articles, the ids of all but its 50 newest (by `discovered_at`)
 * are collected and those articles deleted.
 */
module Retention {
  import opened Models
  import opened Store
  import opened Seqs

  const KeepPerSource := 50

  function OfSource(sourceId: ObjectId): Article -> bool
  {
    (a: Article) => a.sourceId == sourceId
  }

  function NotOfSource(sourceId: ObjectId): Article -> bool
  {
    (a: Article) => a.sourceId != sourceId
  }

  function IdNotIn(ids: set<ObjectId>): Article -> bool
  {
    (a: Article) => a.id !in ids
  }

  function Ids(s: seq<Article>): (r: set<ObjectId>)
    ensures forall i :: 0 <= i < |s| ==> s[i].id in r
    ensures forall id :: id in r ==> exists a :: a in s && a.id == id
  {
    set a | a in s :: a.id
  }

  /**
   * The articles left after the cleanup. `fails` stands for an error from
   * the count, the find or the delete; the crawl then goes on with nothing
   * deleted.
   */
  function CleanupOldArticles(articles: seq<Article>, sourceId: ObjectId, fails: bool): (r: seq<Article>)
    ensures forall a :: a in r ==> a in articles
    ensures fails || |Filter(articles, OfSource(sourceId))| <= KeepPerSource ==> r == articles
  {
    var own := Filter(articles, OfSource(sourceId));
    if fails || |own| <= KeepPerSource then articles
    else Filter(articles, IdNotIn(Ids(SortByRecency(own)[KeepPerSource..])))
  }

  // ---------------------------------------------------------------- distinct ids

  /** With unique ids, two stored articles with the same id are the same article. */
  lemma SameIdSameArticle(s: seq<Article>, a: Article, b: Article)
    requires Pairwise(s, DistinctArticleIds)
    requires a in s && b in s && a.id == b.id
    ensures a == b
  {
    var i :| 0 <= i < |s| && s[i] == a;
    var j :| 0 <= j < |s| && s[j] == b;
    assert i < j ==> DistinctArticleIds(s[i], s[j]);
    assert j < i ==> DistinctArticleIds(s[j], s[i]);
  }

  lemma TailDistinctIds(s: seq<Article>)
    requires |s| > 0 && Pairwise(s, DistinctArticleIds)
    ensures Pairwise(s[1..], DistinctArticleIds)
    ensures forall k :: 0 <= k < |s| - 1 ==> s[1..][k].id != s[0].id
  {
    var tail := s[1..];
    forall i, j | 0 <= i < j < |tail|
      ensures DistinctArticleIds(tail[i], tail[j])
    {
      assert tail[i] == s[i + 1] && tail[j] == s[j + 1];
    }
    forall k | 0 <= k < |tail|
      ensures tail[k].id != s[0].id
    {
      assert DistinctArticleIds(s[0], s[k + 1]);
    }
  }

  /** Putting a distinct-id article in front of a distinct-id sequence keeps ids distinct. */
  lemma ConsDistinctIds(x: Article, s: seq<Article>)
    requires Pairwise(s, DistinctArticleIds)
    requires forall k :: 0 <= k < |s| ==> s[k].id != x.id
    ensures Pairwise([x] + s, DistinctArticleIds)
  {
    var r := [x] + s;
    forall i, j | 0 <= i < j < |r|
      ensures DistinctArticleIds(r[i], r[j])
    {
      assert r[j] == s[j - 1];
      if i > 0 {
        assert r[i] == s[i - 1];
      }
    }
  }

  lemma {:induction false} InsertKeepsDistinctIds(a: Article, sorted: seq<Article>)
    requires NewestFirst(sorted)
    requires Pairwise(sorted, DistinctArticleIds)
    requires forall i :: 0 <= i < |sorted| ==> sorted[i].id != a.id
    ensures Pairwise(InsertByRecency(a, sorted), DistinctArticleIds)
    decreases |sorted|
  {
    if |sorted| == 0 {
    } else if a.discoveredAt >= sorted[0].discoveredAt {
      ConsDistinctIds(a, sorted);
    } else {
      var tail := sorted[1..];
      TailDistinctIds(sorted);
      InsertKeepsDistinctIds(a, tail);
      var rest := InsertByRecency(a, tail);
      forall k | 0 <= k < |rest|
        ensures rest[k].id != sorted[0].id
      {
        assert rest[k] in multiset(tail) + multiset{a};
        if rest[k] != a {
          assert rest[k] in tail;
        }
      }
      ConsDistinctIds(sorted[0], rest);
    }
  }

  /** Sorting by recency keeps ids distinct. */
  lemma {:induction false} SortKeepsDistinctIds(s: seq<Article>)
    requires Pairwise(s, DistinctArticleIds)
    ensures Pairwise(SortByRecency(s), DistinctArticleIds)
    decreases |s|
  {
    if |s| > 0 {
      var tail := s[1..];
      TailDistinctIds(s);
      SortKeepsDistinctIds(tail);
      var sorted := SortByRecency(tail);
      forall i | 0 <= i < |sorted|
        ensures sorted[i].id != s[0].id
      {
        assert sorted[i] in multiset(tail);
      }
      InsertKeepsDistinctIds(s[0], sorted);
    }
  }

  // ---------------------------------------------------------------- the cut

  /** In a sequence with distinct ids, nothing in the first 50 has the id of anything after them. */
  lemma KeptIdsNotDoomed(sorted: seq<Article>)
    requires |sorted| > KeepPerSource
    requires Pairwise(sorted, DistinctArticleIds)
    ensures forall i :: 0 <= i < KeepPerSource ==> sorted[i].id !in Ids(sorted[KeepPerSource..])
  {
    var drop := sorted[KeepPerSource..];
    forall i | 0 <= i < KeepPerSource
      ensures sorted[i].id !in Ids(drop)
    {
      forall d | d in drop
        ensures d.id != sorted[i].id
      {
        var j :| 0 <= j < |drop| && drop[j] == d;
        assert DistinctArticleIds(sorted[i], sorted[KeepPerSource + j]);
      }
    }
  }

  /** Filtering the sorted articles by "not doomed" leaves exactly the first 50. */
  lemma SortedCut(sorted: seq<Article>)
    requires |sorted| > KeepPerSource
    requires Pairwise(sorted, DistinctArticleIds)
    ensures Filter(sorted, IdNotIn(Ids(sorted[KeepPerSource..]))) == sorted[..KeepPerSource]
  {
    var keep, drop := sorted[..KeepPerSource], sorted[KeepPerSource..];
    var p := IdNotIn(Ids(drop));
    assert sorted == keep + drop;
    FilterConcat(keep, drop, p);
    assert Filter(keep, p) == keep by {
      KeptIdsNotDoomed(sorted);
      FilterKeepsAll(keep, p);
    }
    assert Filter(drop, p) == [] by {
      FilterDropsAll(drop, p);
    }
  }

  // ---------------------------------------------------------------- properties

  /**
   * After a cleanup that does not fail, the source keeps min(n, 50) of its
   * n articles.
   */
  lemma CleanupKeepsFifty(articles: seq<Article>, sourceId: ObjectId)
    requires Pairwise(articles, DistinctArticleIds)
    ensures |Filter(CleanupOldArticles(articles, sourceId, false), OfSource(sourceId))|
         == Min(|Filter(articles, OfSource(sourceId))|, KeepPerSource)
  {
    var own := Filter(articles, OfSource(sourceId));
    if |own| > KeepPerSource {
      var sorted := SortByRecency(own);
      var p := IdNotIn(Ids(sorted[KeepPerSource..]));
      FilterPairwise(articles, OfSource(sourceId), DistinctArticleIds);
      SortKeepsDistinctIds(own);
      SortedCut(sorted);
      FilterPermutation(own, sorted, p);
      FilterCommute(articles, p, OfSource(sourceId));
    }
  }

  /** Articles of every other source are left exactly as they were, in order. */
  lemma CleanupSparesOtherSources(articles: seq<Article>, sourceId: ObjectId, fails: bool)
    requires Pairwise(articles, DistinctArticleIds)
    ensures Filter(CleanupOldArticles(articles, sourceId, fails), NotOfSource(sourceId))
         == Filter(articles, NotOfSource(sourceId))
  {
    var own := Filter(articles, OfSource(sourceId));
    if !fails && |own| > KeepPerSource {
      var sorted := SortByRecency(own);
      var drop := sorted[KeepPerSource..];
      var p := IdNotIn(Ids(drop));
      var others := Filter(articles, NotOfSource(sourceId));
      forall x | x in others
        ensures p(x)
      {
        if x.id in Ids(drop) {
          var d :| d in drop && d.id == x.id;
          assert d in multiset(own);
          SameIdSameArticle(articles, x, d);
        }
      }
      FilterKeepsAll(others, p);
      FilterCommute(articles, p, NotOfSource(sourceId));
    }
  }

  /**
   * Every article of the source that survives is at least as recent as every
   * one deleted, and only the source's own articles are deleted.
   */
  lemma CleanupDeletesOldest(articles: seq<Article>, sourceId: ObjectId, fails: bool, kept: Article, gone: Article)
    requires Pairwise(articles, DistinctArticleIds)
    requires kept in CleanupOldArticles(articles, sourceId, fails) && kept.sourceId == sourceId
    requires gone in articles && gone !in CleanupOldArticles(articles, sourceId, fails)
    ensures gone.sourceId == sourceId
    ensures kept.discoveredAt >= gone.discoveredAt
  {
    var own := Filter(articles, OfSource(sourceId));
    var sorted := SortByRecency(own);
    var drop := sorted[KeepPerSource..];
    DeletedIsDoomed(articles, sourceId, fails, gone);
    var j :| 0 <= j < |drop| && drop[j] == gone;
    var i := KeptIsAmongNewest(articles, sourceId, fails, kept);
    assert sorted[KeepPerSource + j] == gone;
  }

  /** A deleted article is one of the source's articles past the 50 newest. */
  lemma DeletedIsDoomed(articles: seq<Article>, sourceId: ObjectId, fails: bool, gone: Article)
    requires Pairwise(articles, DistinctArticleIds)
    requires gone in articles && gone !in CleanupOldArticles(articles, sourceId, fails)
    ensures !fails && |Filter(articles, OfSource(sourceId))| > KeepPerSource
    ensures gone.sourceId == sourceId
    ensures gone in SortByRecency(Filter(articles, OfSource(sourceId)))[KeepPerSource..]
  {
    var own := Filter(articles, OfSource(sourceId));
    var drop := SortByRecency(own)[KeepPerSource..];
    var d :| d in drop && d.id == gone.id;
    assert d in multiset(own);
    SameIdSameArticle(articles, gone, d);
  }

  /** A kept article of the source sits among the 50 newest. */
  lemma KeptIsAmongNewest(articles: seq<Article>, sourceId: ObjectId, fails: bool, kept: Article)
    returns (i: nat)
    requires kept in CleanupOldArticles(articles, sourceId, fails) && kept.sourceId == sourceId
    requires !fails && |Filter(articles, OfSource(sourceId))| > KeepPerSource
    ensures i < KeepPerSource && SortByRecency(Filter(articles, OfSource(sourceId)))[i] == kept
  {
    var own := Filter(articles, OfSource(sourceId));
    var sorted := SortByRecency(own);
    var keep, drop := sorted[..KeepPerSource], sorted[KeepPerSource..];
    assert kept in multiset(sorted);
    assert sorted == keep + drop;
    assert kept !in drop;
    i :| 0 <= i < |keep| && keep[i] == kept;
  }

  /** The cleanup keeps the store's invariant. */
  lemma CleanupPreservesInvariant(db: Db, sourceId: ObjectId, fails: bool)
    requires Invariant(db)
    ensures Invariant(db.(articles := CleanupOldArticles(db.articles, sourceId, fails)))
  {
    var own := Filter(db.articles, OfSource(sourceId));
    if !fails && |own| > KeepPerSource {
      var p := IdNotIn(Ids(SortByRecency(own)[KeepPerSource..]));
      FilterPairwise(db.articles, p, DistinctArticleIds);
      FilterPairwise(db.articles, p, DistinctSourceAndUrl);
      FilterPairwise(db.articles, p, DistinctHashes);
      var r := Filter(db.articles, p);
      forall i | 0 <= i < |r|
        ensures 0 < r[i].id < db.nextId && 0 < r[i].sourceId < db.nextId
      {
        assert r[i] in db.articles;
      }
    }
  }
}

=== FILE: seqs.dfy ===
/** Generic sequence helpers: filtering, filter-mapping and pairwise uniqueness. */
module Seqs {
  import opened Wrappers

  function Min(a: int, b: int): (r: int)
    ensures r <= a && r <= b
    ensures r == a || r == b
  {
    if a <= b then a else b
  }

  /** The elements of `s` that satisfy `p`, in their original order (a Mongo filter). */
  function Filter<T(!new)>(s: seq<T>, p: T -> bool): (r: seq<T>)
    ensures |r| <= |s|
    ensures forall x :: x in r <==> x in s && p(x)
  {
    if |s| == 0 then []
    else if p(s[0]) then [s[0]] + Filter(s[1..], p)
    else Filter(s[1..], p)
  }

  /** Keeps the defined results of `f` over `s`, in order (a goquery `Each` that appends). */
  function FilterMap<A(!new), B(!new)>(s: seq<A>, f: A -> Option<B>): (r: seq<B>)
    ensures |r| <= |s|
    ensures forall y :: y in r ==> exists x :: x in s && f(x) == Some(y)
    ensures |r| == 0 <==> forall x :: x in s ==> f(x).None?
  {
    if |s| == 0 then []
    else
      match f(s[0])
      case Some(y) => [y] + FilterMap(s[1..], f)
      case None => FilterMap(s[1..], f)
  }

  /** `ok` holds of every ordered pair of distinct positions: the shape of a unique index. */
  predicate Pairwise<T>(s: seq<T>, ok: (T, T) -> bool)
  {
    forall i, j :: 0 <= i < j < |s| ==> ok(s[i], s[j])
  }

  lemma {:induction false} FilterConcat<T(!new)>(a: seq<T>, b: seq<T>, p: T -> bool)
    ensures Filter(a + b, p) == Filter(a, p) + Filter(b, p)
    decreases |a|
  {
    if |a| == 0 {
      assert a + b == b;
    } else {
      assert (a + b)[1..] == a[1..] + b;
      FilterConcat(a[1..], b, p);
    }
  }

  /** Filtering keeps exactly the multiplicity of every element that passes. */
  lemma {:induction false} FilterMultiplicity<T(!new)>(s: seq<T>, p: T -> bool, x: T)
    ensures multiset(Filter(s, p))[x] == if p(x) then multiset(s)[x] else 0
    decreases |s|
  {
    if |s| > 0 {
      assert s == [s[0]] + s[1..];
      FilterMultiplicity(s[1..], p, x);
    }
  }

  /** Filtering two permutations of each other gives permutations of each other. */
  lemma FilterPermutation<T(!new)>(a: seq<T>, b: seq<T>, p: T -> bool)
    requires multiset(a) == multiset(b)
    ensures multiset(Filter(a, p)) == multiset(Filter(b, p))
    ensures |Filter(a, p)| == |Filter(b, p)|
  {
    forall x
      ensures multiset(Filter(a, p))[x] == multiset(Filter(b, p))[x]
    {
      FilterMultiplicity(a, p, x);
      FilterMultiplicity(b, p, x);
    }
    assert multiset(Filter(a, p)) == multiset(Filter(b, p));
    assert |multiset(Filter(a, p))| == |Filter(a, p)|;
    assert |multiset(Filter(b, p))| == |Filter(b, p)|;
  }

  /** A filtered sequence keeps every pairwise fact of the original. */
  lemma {:induction false} FilterPairwise<T(!new)>(s: seq<T>, p: T -> bool, ok: (T, T) -> bool)
    requires Pairwise(s, ok)
    ensures Pairwise(Filter(s, p), ok)
    decreases |s|
  {
    if |s| > 0 {
      var tail := Filter(s[1..], p);
      assert Pairwise(s[1..], ok) by {
        forall i, j | 0 <= i < j < |s[1..]|
          ensures ok(s[1..][i], s[1..][j])
        {
          assert s[1..][i] == s[i + 1] && s[1..][j] == s[j + 1];
        }
      }
      FilterPairwise(s[1..], p, ok);
      if p(s[0]) {
        var r := [s[0]] + tail;
        forall i, j | 0 <= i < j < |r|
          ensures ok(r[i], r[j])
        {
          if i == 0 {
            assert r[j] in s[1..];
            var k :| 0 <= k < |s[1..]| && s[1..][k] == r[j];
            assert s[k + 1] == r[j];
          } else {
            assert r[i] == tail[i - 1] && r[j] == tail[j - 1];
          }
        }
      }
    }
  }

  /** Appending an element compatible with everything before it keeps a pairwise fact. */
  lemma PairwiseAppend<T>(s: seq<T>, x: T, ok: (T, T) -> bool)
    requires Pairwise(s, ok)
    requires forall i :: 0 <= i < |s| ==> ok(s[i], x)
    ensures Pairwise(s + [x], ok)
  {
    var r := s + [x];
    forall i, j | 0 <= i < j < |r|
      ensures ok(r[i], r[j])
    {
      if j < |s| {
        assert r[i] == s[i] && r[j] == s[j];
      } else {
        assert r[i] == s[i] && r[j] == x;
      }
    }
  }

  /** Filtering with a predicate every element satisfies changes nothing. */
  lemma {:induction false} FilterKeepsAll<T(!new)>(s: seq<T>, p: T -> bool)
    requires forall x :: x in s ==> p(x)
    ensures Filter(s, p) == s
    decreases |s|
  {
    if |s| > 0 {
      assert forall x :: x in s[1..] ==> x in s;
      FilterKeepsAll(s[1..], p);
    }
  }

  /** Two filters commute. */
  lemma {:induction false} FilterCommute<T(!new)>(s: seq<T>, p: T -> bool, q: T -> bool)
    ensures Filter(Filter(s, p), q) == Filter(Filter(s, q), p)
    decreases |s|
  {
    if |s| > 0 {
      FilterCommute(s[1..], p, q);
    }
  }

  /** Filtering with a predicate no element satisfies leaves nothing. */
  lemma {:induction false} FilterDropsAll<T(!new)>(s: seq<T>, p: T -> bool)
    requires forall x :: x in s ==> !p(x)
    ensures Filter(s, p) == []
    decreases |s|
  {
    if |s| > 0 {
      assert forall x :: x in s[1..] ==> x in s;
      FilterDropsAll(s[1..], p);
    }
  }

  /** Every defined result of `f` over `s` is kept. */
  lemma {:induction false} FilterMapComplete<A(!new), B(!new)>(s: seq<A>, f: A -> Option<B>, x: A)
    requires x in s && f(x).Some?
    ensures f(x).value in FilterMap(s, f)
    decreases |s|
  {
    if s[0] != x {
      FilterMapComplete(s[1..], f, x);
    }
  }

  /** Filtering with two predicates that agree on every element gives the same result. */
  lemma {:induction false} FilterAgree<T(!new)>(s: seq<T>, p: T -> bool, q: T -> bool)
    requires forall x :: x in s ==> p(x) == q(x)
    ensures Filter(s, p) == Filter(s, q)
    decreases |s|
  {
    if |s| > 0 {
      assert forall x :: x in s[1..] ==> x in s;
      FilterAgree(s[1..], p, q);
    }
  }
}

=== FILE: store.dfy ===
/**
 * The three MongoDB collections as in-memory sequences, the unique indexes of
 * database/indexes.go as invariants over them, the lookups the services use,
 * and the `discovered_at`-descending order both retention and the feed sort by.
 */
module Store {
  import opened Wrappers
  import opened Models
  import opened Seqs

  /**
   * The database. `nextId` is the next ObjectID `primitive.NewObjectID` hands
   * out: every id in use, and every id a document refers to, lies below it.
   */
  datatype Db = Db(
    sources: seq<Source>,
    articles: seq<Article>,
    subscriptions: seq<Subscription>,
    nextId: ObjectId)

  // ---------------------------------------------------------------- unique indexes

  predicate DistinctSourceIds(a: Source, b: Source) { a.id != b.id }

  predicate DistinctSourceUrls(a: Source, b: Source) { a.url != b.url }

  predicate DistinctArticleIds(a: Article, b: Article) { a.id != b.id }

  /** The `source_url_unique` index on (source_id, url). */
  predicate DistinctSourceAndUrl(a: Article, b: Article)
  {
    !(a.sourceId == b.sourceId && a.url == b.url)
  }

  /** Content-hash uniqueness, which only the crawler's check maintains. */
  predicate DistinctHashes(a: Article, b: Article) { a.contentHash != b.contentHash }

  predicate DistinctSubscriptionIds(a: Subscription, b: Subscription) { a.id != b.id }

  /** The `user_source_unique` index on (user_id, source_id). */
  predicate DistinctUserAndSource(a: Subscription, b: Subscription)
  {
    !(a.userId == b.userId && a.sourceId == b.sourceId)
  }

  predicate SourcesIndexed(ss: seq<Source>)
  {
    Pairwise(ss, DistinctSourceIds) && Pairwise(ss, DistinctSourceUrls)
  }

  predicate ArticlesIndexed(as_: seq<Article>)
  {
    && Pairwise(as_, DistinctArticleIds)
    && Pairwise(as_, DistinctSourceAndUrl)
    && Pairwise(as_, DistinctHashes)
  }

  predicate SubscriptionsIndexed(subs: seq<Subscription>)
  {
    Pairwise(subs, DistinctSubscriptionIds) && Pairwise(subs, DistinctUserAndSource)
  }

  /** Every id in use or referred to is a real (non-nil) id already handed out. */
  predicate IdsIssued(db: Db)
  {
    && db.nextId > NilId
    && (forall i :: 0 <= i < |db.sources| ==> 0 < db.sources[i].id < db.nextId)
    && (forall i :: 0 <= i < |db.articles| ==>
          0 < db.articles[i].id < db.nextId && 0 < db.articles[i].sourceId < db.nextId)
    && (forall i :: 0 <= i < |db.subscriptions| ==>
          0 < db.subscriptions[i].id < db.nextId && 0 < db.subscriptions[i].sourceId < db.nextId)
  }

  predicate Invariant(db: Db)
  {
    && IdsIssued(db)
    && SourcesIndexed(db.sources)
    && ArticlesIndexed(db.articles)
    && SubscriptionsIndexed(db.subscriptions)
  }

  /** The empty database satisfies the invariant. */
  lemma EmptyInvariant()
    ensures Invariant(Db([], [], [], 1))
  {
  }

  // ---------------------------------------------------------------- lookups

  /** `FindOne({_id: id})` on the sources collection. */
  function FindSource(ss: seq<Source>, id: ObjectId): (r: Option<Source>)
    ensures r.Some? ==> r.value in ss && r.value.id == id
    ensures r.None? <==> forall i :: 0 <= i < |ss| ==> ss[i].id != id
  {
    if |ss| == 0 then None
    else if ss[0].id == id then Some(ss[0])
    else FindSource(ss[1..], id)
  }

  /** `FindOne({url: url})` on the sources collection. */
  function FindSourceByUrl(ss: seq<Source>, url: string): (r: Option<Source>)
    ensures r.Some? ==> r.value in ss && r.value.url == url
    ensures r.None? <==> forall i :: 0 <= i < |ss| ==> ss[i].url != url
  {
    if |ss| == 0 then None
    else if ss[0].url == url then Some(ss[0])
    else FindSourceByUrl(ss[1..], url)
  }

  /** Under the unique url index, the source found for a stored source's url is that source. */
  lemma FindSourceByUrlIndexed(ss: seq<Source>, s: Source)
    requires Pairwise(ss, DistinctSourceUrls)
    requires s in ss
    ensures FindSourceByUrl(ss, s.url) == Some(s)
  {
    var f := FindSourceByUrl(ss, s.url).value;
    var i :| 0 <= i < |ss| && ss[i] == f;
    var j :| 0 <= j < |ss| && ss[j] == s;
    assert !(i < j) by {
      assert i < j ==> DistinctSourceUrls(ss[i], ss[j]);
    }
    assert !(j < i) by {
      assert j < i ==> DistinctSourceUrls(ss[j], ss[i]);
    }
  }

  /** `UpdateOne({_id: s.id}, ...)`: the source with that id becomes `s`. */
  function ReplaceSource(ss: seq<Source>, s: Source): (r: seq<Source>)
    ensures |r| == |ss|
    ensures forall i :: 0 <= i < |ss| ==> r[i] == if ss[i].id == s.id then s else ss[i]
  {
    seq(|ss|, i requires 0 <= i < |ss| => if ss[i].id == s.id then s else ss[i])
  }

  // ---------------------------------------------------------------- recency order

  /** Sorted by `discovered_at` descending: the newest article first. */
  predicate NewestFirst(s: seq<Article>)
  {
    forall i, j :: 0 <= i < j < |s| ==> s[i].discoveredAt >= s[j].discoveredAt
  }

  function InsertByRecency(a: Article, sorted: seq<Article>): (r: seq<Article>)
    requires NewestFirst(sorted)
    ensures NewestFirst(r)
    ensures multiset(r) == multiset(sorted) + multiset{a}
    ensures |r| == |sorted| + 1
  {
    if |sorted| == 0 then [a]
    else if a.discoveredAt >= sorted[0].discoveredAt then [a] + sorted
    else
      var rest := InsertByRecency(a, sorted[1..]);
      assert sorted == [sorted[0]] + sorted[1..];
      InsertedBelowHead(a, sorted, rest);
      ConsNewestFirst(sorted[0], rest);
      [sorted[0]] + rest
  }

  /** Whatever is inserted after the head of a newest-first list is no newer than it. */
  lemma InsertedBelowHead(a: Article, sorted: seq<Article>, rest: seq<Article>)
    requires NewestFirst(sorted) && |sorted| > 0 && a.discoveredAt < sorted[0].discoveredAt
    requires multiset(rest) == multiset(sorted[1..]) + multiset{a}
    ensures forall k :: 0 <= k < |rest| ==> rest[k].discoveredAt <= sorted[0].discoveredAt
  {
    forall k | 0 <= k < |rest|
      ensures rest[k].discoveredAt <= sorted[0].discoveredAt
    {
      assert rest[k] in multiset(rest);
      if rest[k] != a {
        assert rest[k] in sorted[1..];
        var j :| 0 <= j < |sorted[1..]| && sorted[1..][j] == rest[k];
        assert sorted[j + 1] == rest[k];
      }
    }
  }

  /** An article no older than everything in a newest-first list can go in front of it. */
  lemma ConsNewestFirst(x: Article, rest: seq<Article>)
    requires NewestFirst(rest)
    requires forall k :: 0 <= k < |rest| ==> rest[k].discoveredAt <= x.discoveredAt
    ensures NewestFirst([x] + rest)
  {
    var r := [x] + rest;
    forall i, j | 0 <= i < j < |r|
      ensures r[i].discoveredAt >= r[j].discoveredAt
    {
      assert r[j] == rest[j - 1];
      if i > 0 {
        assert r[i] == rest[i - 1];
      }
    }
  }

  /** The `SetSort(discovered_at: -1)` cursor order: a newest-first permutation. */
  function SortByRecency(s: seq<Article>): (r: seq<Article>)
    ensures NewestFirst(r)
    ensures multiset(r) == multiset(s)
    ensures |r| == |s|
  {
    if |s| == 0 then []
    else
      assert s == [s[0]] + s[1..];
      InsertByRecency(s[0], SortByRecency(s[1..]))
  }
}

=== FILE: subscriptions.dfy ===
/**
 * services/subscriptionService.go: adding a subscription by URL (with the
 * source looked up or created on the way), removing one the user owns, and
 * listing a user's subscriptions with their sources.
 */
module Subscriptions {
  import opened Wrappers
  import opened Seqs
  import opened Text
  import opened Models
  import opened Store

  // ---------------------------------------------------------------- URL parsing

  datatype UrlParts = UrlParts(scheme: string, host: string, text: string)

  /**
   * A URL `url.ParseRequestURI` accepted: its scheme, its host and its
   * `String()` form, which starts with the scheme and a colon.
   */
  type ParsedUrl = u: UrlParts | HasPrefix(u.text, u.scheme + ":")
    witness UrlParts("", "", ":")

  /** The outcome of `url.ParseRequestURI`, a parser outside this model. */
  datatype UrlParse = Unparseable | Parsed(url: ParsedUrl)

  const InvalidUrl := "invalid URL format"
  const AlreadySubscribed := "already subscribed to this source"
  const InvalidSubscriptionId := "invalid subscription ID format"
  const NotFoundOrUnauthorized := "subscription not found or unauthorized"

  predicate WebScheme(scheme: string)
  {
    scheme == "http" || scheme == "https"
  }

  /** Drops one trailing '/', if there is one. */
  function StripTrailingSlash(s: string): (r: string)
    requires |s| > 0
    ensures s[|s| - 1] == '/' ==> r + "/" == s
    ensures s[|s| - 1] != '/' ==> r == s
  {
    if s[|s| - 1] == '/' then s[..|s| - 1] else s
  }

  /** Stripping is done once: a URL ending in "//" keeps one slash. */
  lemma StripOnlyOnce(s: string)
    requires |s| >= 2 && s[|s| - 1] == '/' && s[|s| - 2] == '/'
    ensures |StripTrailingSlash(s)| > 0
    ensures StripTrailingSlash(s)[|StripTrailingSlash(s)| - 1] == '/'
  {
  }

  // ---------------------------------------------------------------- AddSubscription

  /**
   * Insert failures during `AddSubscription`: `Some(message)` makes the
   * corresponding `InsertOne` fail with that message.
   */
  datatype AddFaults = AddFaults(sourceInsert: Option<string>, subscriptionInsert: Option<string>)

  datatype Added = Added(db: Db, result: Result<Subscription>)

  /** The source `AddSubscription` creates for a URL nobody has added before. */
  function NewSource(id: ObjectId, url: string, host: string, now: Time): (r: Source)
    ensures r.id == id && r.url == url && r.name == host
    ensures r.status == Active && r.lastError == ""
    ensures r.lastCrawledAt.None? && r.lastAttemptAt.None?
    ensures r.totalArticles == 0 && r.successfulCrawls == 0 && r.failedCrawls == 0
  {
    Source(id, url, host, Active, None, None, "", "", "", "", "", 0, 0, 0, now, now)
  }

  /** Whether the user already has a subscription to the source. */
  predicate Subscribed(subs: seq<Subscription>, userId: string, sourceId: ObjectId)
  {
    exists i :: 0 <= i < |subs| && subs[i].userId == userId && subs[i].sourceId == sourceId
  }

  /**
   * `AddSubscription`. An unparseable URL or one whose scheme is not http or
   * https is rejected with nothing stored. Otherwise the URL loses one
   * trailing slash, the source with that URL is reused or created, and a
   * subscription is added unless the user already has one to that source.
   */
  function AddSubscription(db: Db, userId: string, parse: UrlParse, now: Time, faults: AddFaults): (r: Added)
    ensures parse.Unparseable? || !WebScheme(parse.url.scheme) ==> r == Added(db, Err(InvalidUrl))
    ensures r.db.subscriptions == db.subscriptions || r.result.Ok?
    ensures r.result.Ok? ==> r.db.subscriptions == db.subscriptions + [r.result.value]
    ensures r.result.Ok? ==> r.result.value.userId == userId && r.result.value.subscribedAt == now
    ensures r.db.articles == db.articles
  {
    if parse.Unparseable? || !WebScheme(parse.url.scheme) then Added(db, Err(InvalidUrl))
    else
      var url := StripTrailingSlash(parse.url.text);
      var found := FindSourceByUrl(db.sources, url);
      if found.None? && faults.sourceInsert.Some? then
        Added(db.(nextId := db.nextId + 1), Err("failed to create source: " + faults.sourceInsert.value))
      else
        var source := if found.Some? then found.value else NewSource(db.nextId, url, parse.url.host, now);
        var db1 := if found.Some? then db
          else db.(sources := db.sources + [source], nextId := db.nextId + 1);
        SubscribeTo(db1, userId, source.id, now, faults.subscriptionInsert)
  }

  /** Steps 3 and 4 of `AddSubscription`: the duplicate check and the insert. */
  function SubscribeTo(db: Db, userId: string, sourceId: ObjectId, now: Time, insertFault: Option<string>)
    : (r: Added)
    ensures Subscribed(db.subscriptions, userId, sourceId) ==> r == Added(db, Err(AlreadySubscribed))
    ensures r.result.Ok? <==> !Subscribed(db.subscriptions, userId, sourceId) && insertFault.None?
    ensures r.result.Ok? ==>
      && r.result.value == Subscription(db.nextId, userId, sourceId, now)
      && r.db == db.(subscriptions := db.subscriptions + [r.result.value], nextId := db.nextId + 1)
    ensures r.result.Err? ==> r.db.subscriptions == db.subscriptions
    ensures r.db.sources == db.sources && r.db.articles == db.articles
  {
    if Subscribed(db.subscriptions, userId, sourceId) then Added(db, Err(AlreadySubscribed))
    else if insertFault.Some? then
      Added(db.(nextId := db.nextId + 1), Err("failed to create subscription: " + insertFault.value))
    else
      var sub := Subscription(db.nextId, userId, sourceId, now);
      Added(db.(subscriptions := db.subscriptions + [sub], nextId := db.nextId + 1), Ok(sub))
  }

  /** The URL the source is looked up and stored under. */
  function NormalizedUrl(u: ParsedUrl): (r: string)
    ensures |r| > 0 || u.text == "/"
  {
    StripTrailingSlash(u.text)
  }

  /**
   * A valid URL whose normalised form some source already has reuses that
   * source: no source is created, and the subscription refers to it.
   */
  lemma AddReusesSource(db: Db, userId: string, u: ParsedUrl, now: Time, faults: AddFaults, s: Source)
    requires WebScheme(u.scheme)
    requires s in db.sources && s.url == NormalizedUrl(u)
    requires SourcesIndexed(db.sources)
    ensures AddSubscription(db, userId, Parsed(u), now, faults).db.sources == db.sources
    ensures var r := AddSubscription(db, userId, Parsed(u), now, faults);
      r.result.Ok? ==> r.result.value.sourceId == s.id
  {
    FindSourceByUrlIndexed(db.sources, s);
  }

  /**
   * A valid URL no source has yet creates one source, in its initial state
   * and named after the host, unless the insert fails.
   */
  lemma AddCreatesSource(db: Db, userId: string, u: ParsedUrl, now: Time, faults: AddFaults)
    requires WebScheme(u.scheme)
    requires forall i :: 0 <= i < |db.sources| ==> db.sources[i].url != NormalizedUrl(u)
    requires faults.sourceInsert.None?
    ensures var r := AddSubscription(db, userId, Parsed(u), now, faults);
      r.db.sources == db.sources + [NewSource(db.nextId, NormalizedUrl(u), u.host, now)]
    ensures var r := AddSubscription(db, userId, Parsed(u), now, faults);
      r.result.Ok? ==> r.result.value.sourceId == db.nextId && r.result.value.userId == userId
  {
  }

  /**
   * The source created for a valid URL has the non-empty URL its `required`
   * tag asks for; its name, the URL's host, has no such guarantee.
   */
  lemma CreatedSourceHasUrl(db: Db, userId: string, u: ParsedUrl, now: Time, faults: AddFaults)
    requires WebScheme(u.scheme)
    requires forall i :: 0 <= i < |db.sources| ==> db.sources[i].url != NormalizedUrl(u)
    requires faults.sourceInsert.None?
    ensures |AddSubscription(db, userId, Parsed(u), now, faults).db.sources| == |db.sources| + 1
    ensures var ss := AddSubscription(db, userId, Parsed(u), now, faults).db.sources;
      SourceUrlTag(ss[|ss| - 1])
  {
    AddCreatesSource(db, userId, u, now, faults);
    assert |u.text| >= |u.scheme| + 1 >= 5;
  }

  /** A failed source insert stores nothing and reports the store's message. */
  lemma AddSourceInsertFails(db: Db, userId: string, u: ParsedUrl, now: Time, faults: AddFaults)
    requires WebScheme(u.scheme)
    requires forall i :: 0 <= i < |db.sources| ==> db.sources[i].url != NormalizedUrl(u)
    requires faults.sourceInsert.Some?
    ensures var r := AddSubscription(db, userId, Parsed(u), now, faults);
      && r.db.sources == db.sources && r.db.subscriptions == db.subscriptions
      && r.result == Err("failed to create source: " + faults.sourceInsert.value)
  {
  }

  /**
   * A user who already subscribes to the URL's source is refused and no
   * subscription is added.
   */
  lemma AddRejectsDuplicate(db: Db, userId: string, u: ParsedUrl, now: Time, faults: AddFaults, s: Source)
    requires WebScheme(u.scheme)
    requires s in db.sources && s.url == NormalizedUrl(u)
    requires SourcesIndexed(db.sources)
    requires Subscribed(db.subscriptions, userId, s.id)
    ensures AddSubscription(db, userId, Parsed(u), now, faults) == Added(db, Err(AlreadySubscribed))
  {
    AddReusesSource(db, userId, u, now, faults, s);
  }

  /**
   * A freshly created source has no subscriptions yet, so the duplicate
   * check can only refuse a reused source.
   */
  lemma NewSourceNeverDuplicate(db: Db, userId: string, u: ParsedUrl, now: Time, faults: AddFaults)
    requires Invariant(db)
    requires WebScheme(u.scheme)
    requires forall i :: 0 <= i < |db.sources| ==> db.sources[i].url != NormalizedUrl(u)
    ensures AddSubscription(db, userId, Parsed(u), now, faults).result != Err(AlreadySubscribed)
  {
    assert !Subscribed(db.subscriptions, userId, db.nextId);
    assert AlreadySubscribed[0] == 'a';
    if faults.sourceInsert.Some? {
      var msg := "failed to create source: " + faults.sourceInsert.value;
      assert msg[0] == 'f';
    } else if faults.subscriptionInsert.Some? {
      var msg := "failed to create subscription: " + faults.subscriptionInsert.value;
      assert msg[0] == 'f';
    }
  }

  lemma InsertSourceKeepsInvariant(db: Db, source: Source)
    requires Invariant(db)
    requires source.id == db.nextId
    requires forall i :: 0 <= i < |db.sources| ==> db.sources[i].url != source.url
    ensures Invariant(db.(sources := db.sources + [source], nextId := db.nextId + 1))
  {
    assert forall i :: 0 <= i < |db.sources| ==> DistinctSourceIds(db.sources[i], source);
    assert forall i :: 0 <= i < |db.sources| ==> DistinctSourceUrls(db.sources[i], source);
    PairwiseAppend(db.sources, source, DistinctSourceIds);
    PairwiseAppend(db.sources, source, DistinctSourceUrls);
  }

  lemma InsertSubscriptionKeepsInvariant(db: Db, sub: Subscription)
    requires Invariant(db)
    requires sub.id == db.nextId && 0 < sub.sourceId < db.nextId
    requires !Subscribed(db.subscriptions, sub.userId, sub.sourceId)
    ensures Invariant(db.(subscriptions := db.subscriptions + [sub], nextId := db.nextId + 1))
  {
    assert forall i :: 0 <= i < |db.subscriptions| ==> DistinctSubscriptionIds(db.subscriptions[i], sub);
    assert forall i :: 0 <= i < |db.subscriptions| ==> DistinctUserAndSource(db.subscriptions[i], sub);
    PairwiseAppend(db.subscriptions, sub, DistinctSubscriptionIds);
    PairwiseAppend(db.subscriptions, sub, DistinctUserAndSource);
  }

  /** `AddSubscription` keeps the store's invariant. */
  lemma AddPreservesInvariant(db: Db, userId: string, parse: UrlParse, now: Time, faults: AddFaults)
    requires Invariant(db)
    ensures Invariant(AddSubscription(db, userId, parse, now, faults).db)
  {
    if parse.Parsed? && WebScheme(parse.url.scheme) {
      var u := parse.url;
      var found := FindSourceByUrl(db.sources, NormalizedUrl(u));
      if found.None? && faults.sourceInsert.None? {
        var source := NewSource(db.nextId, NormalizedUrl(u), u.host, now);
        InsertSourceKeepsInvariant(db, source);
        AddWithNewSource(db, userId, u, now, faults);
        AddSubscriptionStep(db.(sources := db.sources + [source], nextId := db.nextId + 1),
                            userId, source, now, faults);
      } else if found.Some? {
        AddWithFoundSource(db, userId, u, now, faults);
        AddSubscriptionStep(db, userId, found.value, now, faults);
      } else {
        AddWithFailedSource(db, userId, u, now, faults);
      }
    }
  }

  /** With no source for the URL and a working insert, the subscription goes to a new source. */
  lemma AddWithNewSource(db: Db, userId: string, u: ParsedUrl, now: Time, faults: AddFaults)
    requires WebScheme(u.scheme)
    requires FindSourceByUrl(db.sources, NormalizedUrl(u)).None? && faults.sourceInsert.None?
    ensures AddSubscription(db, userId, Parsed(u), now, faults).db
         == SubscribeTo(db.(sources := db.sources + [NewSource(db.nextId, NormalizedUrl(u), u.host, now)],
                            nextId := db.nextId + 1),
                        userId, db.nextId, now, faults.subscriptionInsert).db
  {
  }

  /** With a source for the URL, the subscription goes to it. */
  lemma AddWithFoundSource(db: Db, userId: string, u: ParsedUrl, now: Time, faults: AddFaults)
    requires WebScheme(u.scheme)
    requires FindSourceByUrl(db.sources, NormalizedUrl(u)).Some?
    ensures AddSubscription(db, userId, Parsed(u), now, faults).db
         == SubscribeTo(db, userId, FindSourceByUrl(db.sources, NormalizedUrl(u)).value.id, now,
                        faults.subscriptionInsert).db
  {
  }

  /** A failed source insert only uses up an id. */
  lemma AddWithFailedSource(db: Db, userId: string, u: ParsedUrl, now: Time, faults: AddFaults)
    requires WebScheme(u.scheme)
    requires FindSourceByUrl(db.sources, NormalizedUrl(u)).None? && faults.sourceInsert.Some?
    ensures AddSubscription(db, userId, Parsed(u), now, faults).db == db.(nextId := db.nextId + 1)
  {
  }

  /** The last step of `AddSubscription`, once the source is known, keeps the invariant. */
  lemma AddSubscriptionStep(db: Db, userId: string, source: Source, now: Time, faults: AddFaults)
    requires Invariant(db) && 0 < source.id < db.nextId
    ensures Invariant(SubscribeTo(db, userId, source.id, now, faults.subscriptionInsert).db)
  {
    if !Subscribed(db.subscriptions, userId, source.id) && faults.subscriptionInsert.None? {
      InsertSubscriptionKeepsInvariant(db, Subscription(db.nextId, userId, source.id, now));
    }
  }

  // ---------------------------------------------------------------- RemoveSubscription

  datatype Removed = Removed(db: Db, error: Option<string>)

  function OwnedBy(id: ObjectId, userId: string): Subscription -> bool
  {
    (s: Subscription) => s.id == id && s.userId == userId
  }

  function NotOwnedBy(id: ObjectId, userId: string): Subscription -> bool
  {
    (s: Subscription) => !(s.id == id && s.userId == userId)
  }

  /**
   * `RemoveSubscription`. `idParse` is the outcome of
   * `primitive.ObjectIDFromHex`; the delete is scoped to the user, so
   * another user's subscription is reported as not found.
   */
  function RemoveSubscription(db: Db, userId: string, idParse: Option<ObjectId>): (r: Removed)
    ensures idParse.None? ==> r == Removed(db, Some(InvalidSubscriptionId))
    ensures idParse.Some? && |Filter(db.subscriptions, OwnedBy(idParse.value, userId))| == 0
      ==> r == Removed(db, Some(NotFoundOrUnauthorized))
    ensures idParse.Some? && |Filter(db.subscriptions, OwnedBy(idParse.value, userId))| > 0 ==> r.error.None?
    ensures r.error.None? ==>
      && idParse.Some?
      && (forall s :: s in r.db.subscriptions <==>
            s in db.subscriptions && !(s.id == idParse.value && s.userId == userId))
      && |r.db.subscriptions| < |db.subscriptions|
    ensures r.db.sources == db.sources && r.db.articles == db.articles
  {
    if idParse.None? then Removed(db, Some(InvalidSubscriptionId))
    else
      var id := idParse.value;
      var owned := Filter(db.subscriptions, OwnedBy(id, userId));
      if |owned| == 0 then Removed(db, Some(NotFoundOrUnauthorized))
      else
        var kept := Filter(db.subscriptions, NotOwnedBy(id, userId));
        FilterSplitsLength(db.subscriptions, id, userId);
        Removed(db.(subscriptions := kept), None)
  }

  /** A subscription is either owned or not: the two filters split the collection. */
  lemma {:induction false} FilterSplitsLength(subs: seq<Subscription>, id: ObjectId, userId: string)
    ensures |Filter(subs, OwnedBy(id, userId))| + |Filter(subs, NotOwnedBy(id, userId))| == |subs|
    decreases |subs|
  {
    if |subs| > 0 {
      FilterSplitsLength(subs[1..], id, userId);
    }
  }

  /** A subscription of another user is never deleted, whatever id is given. */
  lemma RemoveSparesOthers(db: Db, userId: string, idParse: Option<ObjectId>, s: Subscription)
    requires s in db.subscriptions && s.userId != userId
    ensures s in RemoveSubscription(db, userId, idParse).db.subscriptions
  {
  }

  /** `RemoveSubscription` keeps the store's invariant. */
  lemma RemovePreservesInvariant(db: Db, userId: string, idParse: Option<ObjectId>)
    requires Invariant(db)
    ensures Invariant(RemoveSubscription(db, userId, idParse).db)
  {
    if idParse.Some? {
      var p := NotOwnedBy(idParse.value, userId);
      FilterPairwise(db.subscriptions, p, DistinctSubscriptionIds);
      FilterPairwise(db.subscriptions, p, DistinctUserAndSource);
      var kept := Filter(db.subscriptions, p);
      forall i | 0 <= i < |kept|
        ensures 0 < kept[i].id < db.nextId && 0 < kept[i].sourceId < db.nextId
      {
        assert kept[i] in db.subscriptions;
      }
    }
  }

  // ---------------------------------------------------------------- ListSubscriptions

  datatype SubscriptionWithSource = SubscriptionWithSource(subscription: Subscription, source: Source)

  function OfUser(userId: string): Subscription -> bool
  {
    (s: Subscription) => s.userId == userId
  }

  /** Pairs a subscription with its source, or drops it when the source is gone. */
  function WithSource(sources: seq<Source>): Subscription -> Option<SubscriptionWithSource>
  {
    (s: Subscription) =>
      match FindSource(sources, s.sourceId)
      case None => None
      case Some(src) => Some(SubscriptionWithSource(s, src))
  }

  /**
   * `ListSubscriptions`. `queryFault` is a failure of the find; a
   * subscription whose source cannot be found is skipped.
   */
  function ListSubscriptions(db: Db, userId: string, queryFault: Option<string>)
    : (r: Result<seq<SubscriptionWithSource>>)
    ensures queryFault.Some? ==> r == Err("failed to query subscriptions: " + queryFault.value)
    ensures r.Ok? ==> forall p :: p in r.value ==> (
      && p.subscription in db.subscriptions
      && p.subscription.userId == userId
      && p.source in db.sources
      && p.source.id == p.subscription.sourceId)
    ensures r.Ok? ==> forall s ::
      (s in db.subscriptions && s.userId == userId && FindSource(db.sources, s.sourceId).Some?) ==>
        SubscriptionWithSource(s, FindSource(db.sources, s.sourceId).value) in r.value
  {
    if queryFault.Some? then Err("failed to query subscriptions: " + queryFault.value)
    else
      var mine := Filter(db.subscriptions, OfUser(userId));
      var paired := FilterMap(mine, WithSource(db.sources));
      assert forall s ::
        (s in db.subscriptions && s.userId == userId && FindSource(db.sources, s.sourceId).Some?) ==>
          SubscriptionWithSource(s, FindSource(db.sources, s.sourceId).value) in paired by {
        forall s | s in db.subscriptions && s.userId == userId && FindSource(db.sources, s.sourceId).Some?
          ensures SubscriptionWithSource(s, FindSource(db.sources, s.sourceId).value) in paired
        {
          FilterMapComplete(mine, WithSource(db.sources), s);
        }
      }
      Ok(paired)
  }

  /** A subscription whose source no longer exists is not listed. */
  lemma ListDropsOrphans(db: Db, userId: string, s: Subscription)
    requires FindSource(db.sources, s.sourceId).None?
    ensures forall p :: p in ListSubscriptions(db, userId, None).value ==> p.subscription != s
  {
  }
}

=== FILE: text.dfy ===
/**
 * String operations of Go's `strings` package that the pipeline relies on:
 * white space as `unicode.IsSpace` defines it, `TrimSpace`, `Fields`,
 * `Join(_, " ")`, `ToLower` (ASCII letters only), `HasPrefix` and `Contains`.
 */
module Text {
  /** The white space of `unicode.IsSpace` outside the range U+2000..U+200A. */
  const SpaceChars: set<char> := {' ', '\t', '\n', '\r', '\U{0B}', '\U{0C}', '\U{85}', '\U{A0}', '\U{1680}', '\U{2028}', '\U{2029}', '\U{202F}', '\U{205F}', '\U{3000}'}

  /** `unicode.IsSpace`: the Latin-1 spaces and the Unicode White_Space code points. */
  predicate IsSpace(c: char)
  {
    c in SpaceChars || '\U{2000}' <= c <= '\U{200A}'
  }

  predicate IsUpper(c: char)
  {
    'A' <= c <= 'Z'
  }

  predicate AllSpace(s: string)
  {
    forall i :: 0 <= i < |s| ==> IsSpace(s[i])
  }

  predicate NoSpace(s: string)
  {
    forall i :: 0 <= i < |s| ==> !IsSpace(s[i])
  }

  predicate NoUpper(s: string)
  {
    forall i :: 0 <= i < |s| ==> !IsUpper(s[i])
  }

  /** A field of `strings.Fields`: a non-empty run of non-space characters. */
  predicate IsWord(w: string)
  {
    |w| > 0 && NoSpace(w)
  }

  /**
   * The shape a normalised text has: no white space at either end, every
   * white-space character a plain ' ', and never two of them in a row.
   */
  predicate SingleSpaced(s: string)
  {
    && (|s| > 0 ==> !IsSpace(s[0]) && !IsSpace(s[|s| - 1]))
    && (forall i :: 0 <= i < |s| && IsSpace(s[i]) ==> s[i] == ' ')
    && (forall i :: 0 <= i < |s| - 1 && IsSpace(s[i]) ==> !IsSpace(s[i + 1]))
  }

  // ---------------------------------------------------------------- case

  /** `unicode.ToLower` restricted to ASCII: 'A'..'Z' map to 'a'..'z', all else is kept. */
  function LowerChar(c: char): (r: char)
    ensures !IsUpper(r)
    ensures IsSpace(r) <==> IsSpace(c)
    ensures !IsUpper(c) ==> r == c
  {
    if IsUpper(c) then (c as int + 32) as char else c
  }

  function ToLower(s: string): (r: string)
    ensures |r| == |s|
    ensures NoUpper(r)
    ensures forall i :: 0 <= i < |s| ==> r[i] == LowerChar(s[i])
  {
    seq(|s|, i requires 0 <= i < |s| => LowerChar(s[i]))
  }

  lemma ToLowerConcat(a: string, b: string)
    ensures ToLower(a + b) == ToLower(a) + ToLower(b)
  {
  }

  lemma ToLowerOfLower(s: string)
    requires NoUpper(s)
    ensures ToLower(s) == s
  {
  }

  // ---------------------------------------------------------------- trimming

  /** `strings.TrimLeftFunc(s, unicode.IsSpace)`: drops the leading white space. */
  function TrimLeft(s: string): (r: string)
    ensures |r| <= |s|
    ensures |r| > 0 ==> !IsSpace(r[0])
    decreases |s|
  {
    if |s| > 0 && IsSpace(s[0]) then TrimLeft(s[1..]) else s
  }

  /** `strings.TrimRightFunc(s, unicode.IsSpace)`: drops the trailing white space. */
  function TrimRight(s: string): (r: string)
    ensures |r| <= |s|
    ensures |r| > 0 ==> !IsSpace(r[|r| - 1])
    decreases |s|
  {
    if |s| > 0 && IsSpace(s[|s| - 1]) then TrimRight(s[..|s| - 1]) else s
  }

  /** `strings.TrimSpace`. */
  function TrimSpace(s: string): (r: string)
    ensures |r| <= |s|
    ensures |r| > 0 ==> !IsSpace(r[0]) && !IsSpace(r[|r| - 1])
  {
    var l := TrimLeft(s);
    TrimRightSplit(l);
    TrimRight(l)
  }

  /** What `TrimLeft` removes is white space, and what it keeps is a suffix. */
  lemma {:induction false} TrimLeftSplit(s: string)
    ensures s == s[..|s| - |TrimLeft(s)|] + TrimLeft(s)
    ensures AllSpace(s[..|s| - |TrimLeft(s)|])
    decreases |s|
  {
    if |s| > 0 && IsSpace(s[0]) {
      TrimLeftSplit(s[1..]);
      var k := |s| - |TrimLeft(s)|;
      assert s[1..][..k - 1] == s[1..k];
      assert s[..k] == [s[0]] + s[1..k];
    }
  }

  /** What `TrimRight` removes is white space, and what it keeps is a prefix. */
  lemma {:induction false} TrimRightSplit(s: string)
    ensures s == TrimRight(s) + s[|TrimRight(s)|..]
    ensures AllSpace(s[|TrimRight(s)|..])
    decreases |s|
  {
    if |s| > 0 && IsSpace(s[|s| - 1]) {
      var t := s[..|s| - 1];
      TrimRightSplit(t);
      var k := |TrimRight(s)|;
      assert t[k..] + [s[|s| - 1]] == s[k..];
    }
  }

  /** Trimming only removes white space: `s` is the trimmed text padded on both sides. */
  lemma TrimSpacePadding(s: string) returns (front: string, back: string)
    ensures s == front + TrimSpace(s) + back
    ensures AllSpace(front) && AllSpace(back)
  {
    var l := TrimLeft(s);
    TrimLeftSplit(s);
    TrimRightSplit(l);
    front := s[..|s| - |l|];
    back := l[|TrimSpace(s)|..];
  }

  /** Text with no white space at either end is its own trim. */
  lemma TrimSpaceOfTrimmed(s: string)
    requires |s| > 0 ==> !IsSpace(s[0]) && !IsSpace(s[|s| - 1])
    ensures TrimSpace(s) == s
  {
  }

  // ---------------------------------------------------------------- fields

  /** The longest prefix of `s` free of white space. */
  function TakeWord(s: string): (w: string)
    ensures |w| <= |s|
    ensures NoSpace(w)
    ensures |s| > 0 && !IsSpace(s[0]) ==> |w| > 0
    decreases |s|
  {
    if |s| > 0 && !IsSpace(s[0]) then [s[0]] + TakeWord(s[1..]) else []
  }

  /** `TakeWord` returns a prefix, and stops only at white space or at the end. */
  lemma {:induction false} TakeWordSplit(s: string)
    ensures s == TakeWord(s) + s[|TakeWord(s)|..]
    ensures |TakeWord(s)| < |s| ==> IsSpace(s[|TakeWord(s)|])
    decreases |s|
  {
    if |s| > 0 && !IsSpace(s[0]) {
      TakeWordSplit(s[1..]);
      assert s == [s[0]] + s[1..];
    }
  }

  /** `strings.Fields`: the maximal runs of non-space characters, in order. */
  function Fields(s: string): (ws: seq<string>)
    ensures forall k :: 0 <= k < |ws| ==> IsWord(ws[k])
    decreases |s|
  {
    var t := TrimLeft(s);
    if |t| == 0 then []
    else
      var w := TakeWord(t);
      [w] + Fields(t[|w|..])
  }

  /** `strings.Join(ws, " ")`. */
  function JoinWords(ws: seq<string>): string
  {
    if |ws| == 0 then ""
    else if |ws| == 1 then ws[0]
    else ws[0] + " " + JoinWords(ws[1..])
  }

  lemma JoinStep(ws: seq<string>)
    requires |ws| > 1
    ensures JoinWords(ws) == ws[0] + (" " + JoinWords(ws[1..]))
  {
  }

  lemma {:induction false} TrimLeftOfPadded(a: string, x: string)
    requires AllSpace(a)
    ensures TrimLeft(a + x) == TrimLeft(x)
    decreases |a|
  {
    if |a| > 0 {
      assert (a + x)[1..] == a[1..] + x;
      TrimLeftOfPadded(a[1..], x);
    } else {
      assert a + x == x;
    }
  }

  /** Leading white space does not change the fields. */
  lemma FieldsOfLeftPadded(a: string, x: string)
    requires AllSpace(a)
    ensures Fields(a + x) == Fields(x)
  {
    TrimLeftOfPadded(a, x);
  }

  lemma {:induction false} TrimLeftOfRightPadded(x: string, b: string)
    requires AllSpace(b)
    ensures TrimLeft(x + b) == if |TrimLeft(x)| == 0 then [] else TrimLeft(x) + b
    decreases |x|
  {
    if |x| == 0 {
      assert x + b == b;
      TrimLeftOfPadded(b, []);
      assert b + [] == b;
    } else if IsSpace(x[0]) {
      assert (x + b)[1..] == x[1..] + b;
      TrimLeftOfRightPadded(x[1..], b);
    }
  }

  lemma {:induction false} TakeWordOfRightPadded(t: string, b: string)
    requires AllSpace(b)
    ensures TakeWord(t + b) == TakeWord(t)
    decreases |t|
  {
    if |t| == 0 {
      assert t + b == b;
    } else if !IsSpace(t[0]) {
      assert (t + b)[1..] == t[1..] + b;
      TakeWordOfRightPadded(t[1..], b);
    }
  }

  /** Trailing white space does not change the fields. */
  lemma {:induction false} FieldsOfRightPadded(x: string, b: string)
    requires AllSpace(b)
    ensures Fields(x + b) == Fields(x)
    decreases |x|
  {
    TrimLeftOfRightPadded(x, b);
    var t := TrimLeft(x);
    if |t| > 0 {
      var w := TakeWord(t);
      TakeWordOfRightPadded(t, b);
      assert (t + b)[|w|..] == t[|w|..] + b;
      FieldsOfRightPadded(t[|w|..], b);
    }
  }

  /** Fields ignore white space around the text. */
  lemma FieldsOfPadded(a: string, m: string, b: string)
    requires AllSpace(a) && AllSpace(b)
    ensures Fields(a + m + b) == Fields(m)
  {
    assert a + m + b == a + (m + b);
    FieldsOfLeftPadded(a, m + b);
    FieldsOfRightPadded(m, b);
  }

  /** A word followed by text that starts with a space is taken whole. */
  lemma {:induction false} TakeWordPrefix(w: string, x: string)
    requires NoSpace(w)
    requires |x| > 0 && IsSpace(x[0])
    ensures TakeWord(w + x) == w
    decreases |w|
  {
    if |w| == 0 {
      assert w + x == x;
    } else {
      assert (w + x)[1..] == w[1..] + x;
      TakeWordPrefix(w[1..], x);
    }
  }

  /** One step of `Fields` on text that starts with a word. */
  lemma FieldsStep(s: string)
    requires |s| > 0 && !IsSpace(s[0])
    ensures Fields(s) == [TakeWord(s)] + Fields(s[|TakeWord(s)|..])
  {
    assert TrimLeft(s) == s;
  }

  lemma {:induction false} TakeWordOfNoSpace(w: string)
    requires NoSpace(w)
    ensures TakeWord(w) == w
    decreases |w|
  {
    if |w| > 0 {
      TakeWordOfNoSpace(w[1..]);
    }
  }

  lemma FieldsOfWord(w: string)
    requires IsWord(w)
    ensures Fields(w) == [w]
  {
    TakeWordOfNoSpace(w);
    FieldsStep(w);
    assert w[|w|..] == [];
  }

  /** A word, a space, then more text: the word is the first field. */
  lemma FieldsOfWordThenSpace(w: string, rest: string)
    requires IsWord(w)
    ensures Fields(w + (" " + rest)) == [w] + Fields(rest)
  {
    var s := w + (" " + rest);
    assert s[0] == w[0];
    TakeWordPrefix(w, " " + rest);
    FieldsStep(s);
    assert s[|w|..] == " " + rest;
    FieldsOfLeftPadded(" ", rest);
  }

  lemma TailAllWords(ws: seq<string>)
    requires |ws| > 0
    requires forall k :: 0 <= k < |ws| ==> IsWord(ws[k])
    ensures forall k :: 0 <= k < |ws[1..]| ==> IsWord(ws[1..][k])
  {
    forall k | 0 <= k < |ws[1..]|
      ensures IsWord(ws[1..][k])
    {
      assert ws[1..][k] == ws[k + 1];
    }
  }

  /** Splitting a space-joined list of words gives the words back. */
  lemma {:induction false} FieldsOfJoin(ws: seq<string>)
    requires forall k :: 0 <= k < |ws| ==> IsWord(ws[k])
    ensures Fields(JoinWords(ws)) == ws
    decreases |ws|
  {
    if |ws| == 1 {
      FieldsOfWord(ws[0]);
    } else if |ws| > 1 {
      TailAllWords(ws);
      FieldsOfJoin(ws[1..]);
      JoinStep(ws);
      FieldsOfWordThenSpace(ws[0], JoinWords(ws[1..]));
      assert ws == [ws[0]] + ws[1..];
    }
  }

  /** Joining words with single spaces yields single-spaced text. */
  lemma {:induction false} JoinIsSingleSpaced(ws: seq<string>)
    requires forall k :: 0 <= k < |ws| ==> IsWord(ws[k])
    ensures SingleSpaced(JoinWords(ws))
    ensures |ws| > 0 ==> |JoinWords(ws)| > 0
    decreases |ws|
  {
    if |ws| > 1 {
      TailAllWords(ws);
      JoinIsSingleSpaced(ws[1..]);
      JoinStep(ws);
      WordSpaceSingleSpaced(ws[0], JoinWords(ws[1..]));
    }
  }

  /** A word, one space and non-empty single-spaced text form single-spaced text. */
  lemma WordSpaceSingleSpaced(w: string, rest: string)
    requires IsWord(w)
    requires |rest| > 0 && SingleSpaced(rest)
    ensures SingleSpaced(w + (" " + rest))
  {
    var s := w + (" " + rest);
    forall i | 0 <= i < |s| - 1
      ensures IsSpace(s[i]) ==> !IsSpace(s[i + 1])
    {
      if i < |w| {
        assert s[i] == w[i];
      } else if i == |w| {
        assert s[i + 1] == rest[0];
      } else {
        assert s[i] == rest[i - |w| - 1] && s[i + 1] == rest[i - |w|];
      }
    }
    forall i | 0 <= i < |s|
      ensures IsSpace(s[i]) ==> s[i] == ' '
    {
      if i < |w| {
        assert s[i] == w[i];
      } else if i > |w| {
        assert s[i] == rest[i - |w| - 1];
      }
    }
    assert s[|s| - 1] == rest[|rest| - 1];
  }

  /** Joining words without upper-case letters gives text without upper-case letters. */
  lemma {:induction false} JoinNoUpper(ws: seq<string>)
    requires forall k :: 0 <= k < |ws| ==> NoUpper(ws[k])
    ensures NoUpper(JoinWords(ws))
    decreases |ws|
  {
    if |ws| > 1 {
      assert forall k :: 0 <= k < |ws[1..]| ==> NoUpper(ws[1..][k]) by {
        forall k | 0 <= k < |ws[1..]|
          ensures NoUpper(ws[1..][k])
        {
          assert ws[1..][k] == ws[k + 1];
        }
      }
      JoinNoUpper(ws[1..]);
      var rest := JoinWords(ws[1..]);
      var s := ws[0] + " " + rest;
      forall i | 0 <= i < |s|
        ensures !IsUpper(s[i])
      {
        if i < |ws[0]| {
          assert s[i] == ws[0][i];
        } else if i > |ws[0]| {
          assert s[i] == rest[i - |ws[0]| - 1];
        }
      }
    }
  }

  /** Single-spaced text that is not one word splits as word, space, single-spaced rest. */
  lemma SingleSpacedSplit(s: string) returns (w: string, rest: string)
    requires SingleSpaced(s) && |s| > 0 && |TakeWord(s)| < |s|
    ensures w == TakeWord(s) && IsWord(w)
    ensures s == w + (" " + rest)
    ensures |rest| > 0 && SingleSpaced(rest) && |rest| < |s|
  {
    w := TakeWord(s);
    TakeWordSplit(s);
    assert s[|w|] == ' ';
    rest := s[|w| + 1..];
    assert |w| != |s| - 1;
    assert s[|w|..] == " " + rest;
    assert !IsSpace(rest[0]);
    assert rest[|rest| - 1] == s[|s| - 1];
    forall i | 0 <= i < |rest| - 1
      ensures IsSpace(rest[i]) ==> !IsSpace(rest[i + 1])
    {
      assert rest[i] == s[|w| + 1 + i] && rest[i + 1] == s[|w| + 2 + i];
    }
    forall i | 0 <= i < |rest|
      ensures IsSpace(rest[i]) ==> rest[i] == ' '
    {
      assert rest[i] == s[|w| + 1 + i];
    }
  }

  /** Single-spaced text is the space-join of its own fields. */
  lemma {:induction false} JoinOfFields(s: string)
    requires SingleSpaced(s)
    ensures JoinWords(Fields(s)) == s
    decreases |s|
  {
    if |s| > 0 {
      var w := TakeWord(s);
      if |w| == |s| {
        TakeWordSplit(s);
        assert w == s;
        FieldsOfWord(s);
      } else {
        var w', rest := SingleSpacedSplit(s);
        FieldsOfWordThenSpace(w, rest);
        JoinOfFields(rest);
        FieldsStep(rest);
        var fs := [w] + Fields(rest);
        assert fs[1..] == Fields(rest);
        JoinStep(fs);
      }
    }
  }

  // ---------------------------------------------------------------- prefixes

  /** `strings.HasPrefix`. */
  predicate HasPrefix(s: string, p: string)
  {
    |p| <= |s| && s[..|p|] == p
  }

  /** `strings.Contains`: `sub` occurs somewhere in `s`. */
  predicate Contains(s: string, sub: string)
    decreases |s|
  {
    HasPrefix(s, sub) || (|s| > 0 && Contains(s[1..], sub))
  }
}

=== FILE: wrappers.dfy ===
/** Failure-carrying result types shared by every module of the model. */
module Wrappers {

  /** A value that may be absent: Go's nil pointer or a missing lookup. */
  datatype Option<+T> = None | Some(value: T)

  /** A Go `(value, error)` pair where exactly one side is meaningful. */
  datatype Result<+R> = Ok(value: R) | Err(error: string)
}
